=== FILE: README.md ===
# SmartFolderZen, modelled in Dafny

SmartFolderZen is a small desktop tool. It creates one folder per day (named `MMDD` or `YYYY-MM-DD`) under a configured root directory. This project models its core: the React settings screen's controller, the simpler unused variant of that screen, and the Rust backend behind both. It then proves what each part promises.

- **Backend settings.** The settings record, the folder-name formatter, the default settings, loading and saving the configuration file, and the writable-directory check (`settings.rs`).
- **Folder manager.** Creating the dated folder idempotently, asking whether it exists, computing today's path, validating a directory, and the existence check made before opening a folder (`folder.rs`).
- **Commands.** The commands the backend registers for the front end (`lib.rs`, lines 57-71): load, save, open, folder status, create today's folder, validate a path, and the folder dialog (`commands.rs`). The settings screen calls only `get_settings` and `save_settings`; its folder dialog is the dialog plugin's `open`, not `select_folder_dialog`. The tray calls the folder manager directly, not these commands.
- **Error taxonomy.** Error constructors, labels, display, and the classification of I/O errors (`error.rs`).
- **Settings screen controller.** A guarded transition system (`Settings.tsx`). Each asynchronous call becomes a request step and a reply step, with the host's answer as an input. The `disabled={isLoading}` attributes become enabledness guards on the user's events.
- **Simpler screen.** Its reset and edit rules, its placeholder save and select actions, and its message banner (`SettingsSimpleCSS.tsx`).

The file system is a map from paths to entries, each with a directory flag and a writable flag. The configuration file is an optional document. The clock, the desktop directory, the mutex, the dialog and process spawning are all parameters.

Modules, one per file:

- `Optional`: the option type.
- `DecimalText`: digits, zero padding and substring search.
- `Calendar`: valid dates.
- `Errors`: `error.rs`.
- `FileSystem`: the abstract file system, `join` and the writable-directory check.
- `Settings`: `settings.rs`.
- `Folder`: `folder.rs`.
- `Commands`: `commands.rs`.
- `SettingsScreen`: `Settings.tsx`.
- `SimpleSettingsScreen`: `SettingsSimpleCSS.tsx`.

Behaviours of the code worth noting:

- **The initial load is not gated.** It does not set `isLoading`, so browse, save and the path input are enabled while it is awaited. A late reply overwrites edits made in the meantime (`SettingsScreen.LoadIsNotGated`).
- **A failed load keeps the current settings.** The screen goes on showing whatever settings it held before the reply, which on first mount are the initial ones, and adds one error toast titled "加载失败" whose body is "无法加载保存的设置，使用默认设置" (`SettingsScreen.OnLoadSettled`).
- **A whitespace-only root counts as present.** Saving refuses only the empty string.
- **The `YYYYMMDD` names differ between back end and preview.** The backend folder name has dashes (`%Y-%m-%d`) and the screen's preview has none. The model keeps both and relates them (`SettingsScreen.PreviewOmitsDashes`).

## Model

| member | source | states |
|---|---|---|
| Settings.ChangedFields | src/types/settings.ts:1-6 | the set of fields two settings records differ in; it is empty exactly when the records are equal, and holds each field exactly when that field differs |
| Settings.YearText | src-tauri/src/settings.rs:25 | chrono's `%Y`: a year in 0..9999 zero-padded to four digits, any other year a sign before its magnitude zero-padded to four digits; its shape and injectivity are `Settings.YearTextShape` and `Settings.YearTextInjective` |
| Settings.YearTextShape | src-tauri/src/settings.rs:25 | the `%Y` year text is four digits denoting the year for 0..9999; any other year is a sign and then the magnitude, exactly four digits when below 10000 and its plain decimal text from 10000 on |
| Settings.YearTextInjective | src-tauri/src/settings.rs:25 | two years render alike exactly when they are equal |
| Settings.FormatDate | src-tauri/src/settings.rs:22-27 | the folder name for a date: `%m%d` under `MMDD`, `%Y-%m-%d` under `YYYYMMDD`; its shape and injectivity are the `…NameShape` and `…NameInjective` lemmas |
| Settings.MmddNameShape | src-tauri/src/settings.rs:24 | an `MMDD` folder name is four digits: the month in the first two, the day in the last two |
| Settings.MmddNameIgnoresYear | src-tauri/src/settings.rs:24 | two dates get the same `MMDD` name exactly when month and day agree, whatever the years |
| Settings.IsoNameParts | src-tauri/src/settings.rs:25 | a `YYYYMMDD` name is the year text, a dash, the two-digit month, a dash and the two-digit day |
| Settings.IsoNameShape | src-tauri/src/settings.rs:25 | for years 0..9999 a `YYYYMMDD` name is ten characters with dashes at indices 4 and 7, and its three digit groups denote year, month and day |
| Settings.IsoNameInjective | src-tauri/src/settings.rs:25 | two dates get the same `YYYYMMDD` name exactly when they are the same date |
| Settings.FolderNameExamples | src-tauri/src/folder.rs:141-148 | 2024-03-15 is named "0315" under `MMDD` and "2024-03-15" under `YYYYMMDD` |
| Settings.DefaultSettings | src-tauri/src/settings.rs:30-42 | the defaults are the desktop directory (or "." without one), `YYYYMMDD`, and both toggles on |
| Settings.ParseSerialize | src-tauri/src/settings.rs:57-58 | decoding the encoding of any settings gives them back |
| Settings.Save | src-tauri/src/settings.rs:61-74 | saving succeeds exactly when the configuration directory resolves, can be created and the file can be written; success stores the settings' encoding; any failure is a configuration error; a failure before the write leaves the file as it was, and a failed write leaves either the old file or, once truncated, whatever it managed to write |
| Settings.Load | src-tauri/src/settings.rs:45-59 | with no file, the defaults are saved and returned, the load fails exactly when that save fails, and the file is then what that save left; with a file, loading succeeds exactly when it can be read and decoded, returns the decoded value, never changes the file, and every error is a configuration error |
| Settings.TornSaveBreaksLoad | src-tauri/src/settings.rs:54-73 | a write that fails after truncating leaves a file that the next load rejects with "配置文件格式错误" instead of recreating the defaults |
| Settings.SaveThenLoad | src-tauri/src/settings.rs:45-74 | after a successful save, a load returns exactly the saved settings and leaves the file unchanged |
| Settings.LoadIdempotent | src-tauri/src/settings.rs:45-59 | a second load after a successful one returns the same result and store, including after the first load created the defaults |
| Settings.ValidatePath | src-tauri/src/settings.rs:76-96 | checks in order: a missing root is "指定的路径不存在", a non-directory is "指定的路径不是目录", an unwritable directory is a permission error; success holds exactly when the probe file can be written; only the probe path may differ afterwards, and it is gone on success |
| FileSystem.Join | src-tauri/src/folder.rs:22 | joining a relative name ends with that name, extends a non-empty root, and never yields the root itself |
| FileSystem.JoinInjective | src-tauri/src/folder.rs:22 | under one root, two relative names join to the same path exactly when they are equal |
| FileSystem.CheckWritableDir | src-tauri/src/settings.rs:76-96 | the check shared by both validations: its error classification and order, success exactly when the probe can be written, no change on failure, and only the probe path touched on success |
| FileSystem.CheckWritableDirErrorKinds | src-tauri/src/folder.rs:94-114 | the writable-directory check reports only invalid-path or permission errors |
| FileSystem.CheckWritableDirPreserves | src-tauri/src/settings.rs:88-95 | when no file already sat at the probe path, the check leaves the file system exactly as it found it |
| Folder.FolderNameIsRelative | src-tauri/src/folder.rs:21-22 | every folder name is non-empty and starts with neither a separator nor a dot, so joining it onto the root always appends it |
| Folder.DatedFolderPath | src-tauri/src/folder.rs:21-22 | the dated folder is the root joined with the date's folder name; `Folder.DatedFolderIsNew` shows it is neither the root nor the probe |
| Folder.DatedFolderIsNew | src-tauri/src/folder.rs:21-22 | the dated folder's path is neither the root nor the validation probe |
| Folder.CreateFolderForDate | src-tauri/src/folder.rs:17-35 | an invalid root returns the validation error with nothing created; success holds exactly when the root validates and the target exists or can be made; the result is the joined path, which then exists; an existing target changes nothing; a failed creation reports "创建文件夹失败: " with the host's text; otherwise exactly a new directory is added |
| Folder.CreateIdempotent | src-tauri/src/folder.rs:25-27 | once creation succeeded, repeating it on the resulting file system returns the same result and file system, whatever creation would now do |
| Folder.ValidationKeepsRoot | src-tauri/src/settings.rs:88-95 | a successful validation leaves the root entry as it was and no probe file behind |
| Folder.FolderExistsForDate | src-tauri/src/folder.rs:44-48 | the folder exists for a date when its dated path is a directory; a plain file there does not count (`Folder.CreateAcceptsPlainFile`) |
| Folder.CreateThenExists | src-tauri/src/folder.rs:30-34 | when nothing occupied the target, creation succeeds exactly when the dated folder then exists as a directory |
| Folder.CreateAcceptsPlainFile | src-tauri/src/folder.rs:25-27 | a plain file at the target is reported as the created folder, while the existence query reports no folder |
| Folder.TodayFolderPath | src-tauri/src/folder.rs:51-56 | today's path is the dated path for today's date, whether or not it exists |
| Folder.TodayPathIsCreatedPath | src-tauri/src/folder.rs:51-56 | today's reported path is the path a successful creation for today returns |
| Folder.ValidateFolderPath | src-tauri/src/folder.rs:94-114 | the same ordered checks with their own messages ("路径不存在", "路径不是目录", permission) and their own probe; success exactly when that probe can be written, and the probe is gone on success |
| Folder.ValidationsAgree | src-tauri/src/folder.rs:94-114 | the two validations agree on invalid-path errors always, and agree on success and error kind whenever neither probe file pre-exists |
| Folder.OpenInExplorer | src-tauri/src/folder.rs:59-91 | a missing path is "文件夹不存在"; otherwise it succeeds exactly when the file manager starts (or the platform has none), and otherwise fails with a file-system error |
| Commands.GetSettings | src-tauri/src/commands.rs:42-47 | the command's result and resulting file are exactly those of loading, and the in-memory settings and file system are untouched |
| Commands.SaveSettings | src-tauri/src/commands.rs:49-68 | a failed validation returns its error with nothing changed; a failed save returns its error with the file as the failed save left it and memory unchanged; a failed lock reports "无法更新设置状态" after the file was written; success holds exactly when all three steps succeed and leaves file and memory holding the submitted settings |
| Commands.SaveSettingsSynchronizes | src-tauri/src/commands.rs:58-67 | after a successful save, loading returns exactly the in-memory settings, which are the submitted ones |
| Commands.ExplorerTarget | src-tauri/src/commands.rs:25-37 | an explicit path is used verbatim; otherwise a lock failure is an error, today's folder is chosen if it exists, and the root if not |
| Commands.OpenFolderCommand | src-tauri/src/commands.rs:20-40 | the command fails with the lock error when no path can be chosen, and otherwise opens the chosen path |
| Commands.OpenWithoutPathFindsFolder | src-tauri/src/commands.rs:25-39 | with an existing root and one clock reading, the path chosen is the root or an existing directory, so opening fails only when the file manager does |
| Commands.ValidateFolderPathCommand | src-tauri/src/commands.rs:70-73 | succeeds exactly when the probe can be written, touches only the probe path, removes it on success, and leaves the configuration and in-memory settings alone |
| Commands.GetTodayFolderStatus | src-tauri/src/commands.rs:75-87 | a lock failure is an error; otherwise the status reports today's path and whether today's folder exists |
| Commands.FolderStatusConsistent | src-tauri/src/commands.rs:83-86 | with one clock reading, the status says the folder exists exactly when its reported path is a directory |
| Commands.CreateTodayFolder | src-tauri/src/commands.rs:9-18 | a lock failure is an error with nothing changed; otherwise the result and the file system are creation's for today, and the configuration and in-memory settings are untouched |
| Commands.CreateTodayThenStatus | src-tauri/src/commands.rs:9-18 | when nothing occupied today's path, creating today's folder succeeds exactly when the status then reports the folder existing, and the created path is the reported path |
| Commands.SelectFolderDialog | src-tauri/src/commands.rs:162-184 | a pick gives `Ok(Some(path))`, a dismissal `Ok(None)`, and a closed channel the configuration error "文件夹选择对话框错误"; it succeeds exactly when the channel delivered |
| Errors.MakeError | src-tauri/src/error.rs:26-31 | the error carries the given message and kind |
| Errors.FileSystemError | src-tauri/src/error.rs:33-35 | the error has kind `FileSystem` and the given message |
| Errors.InvalidPathError | src-tauri/src/error.rs:37-39 | the error has kind `InvalidPath` and the given message |
| Errors.PermissionDeniedError | src-tauri/src/error.rs:41-43 | the error has kind `PermissionDenied` and the given message |
| Errors.ConfigurationError | src-tauri/src/error.rs:45-47 | the error has kind `Configuration` and the given message |
| Errors.Label | src-tauri/src/error.rs:49-57 | the Chinese label of each of the five error kinds |
| Errors.LabelsDistinct | src-tauri/src/error.rs:49-57 | the five labels are non-empty and pairwise distinct (already in their first character) |
| Errors.Display | src-tauri/src/error.rs:19-23 | the display is the kind's label, then ": ", then the message, in those positions |
| Errors.DisplayInjective | src-tauri/src/error.rs:19-23 | two errors display alike exactly when they are the same error |
| Errors.FromIo | src-tauri/src/error.rs:60-68 | not-found becomes "路径不存在" (invalid path), permission-denied becomes "没有访问权限", and any other kind becomes a file-system error quoting the I/O error |
| Errors.FromIoClassifies | src-tauri/src/error.rs:60-68 | each resulting kind comes from exactly one I/O kind, and the conversion never yields a configuration error |
| Errors.NeverUnknown | src-tauri/src/error.rs:33-68 | none of the four kind-specific constructors and not the I/O conversion produces the `Unknown` kind; `new`, which could, is called only by those four (error.rs:33-47) |
| DecimalText.Decimal | src/components/Settings.tsx:322-323 | the decimal text of a number is a non-empty digit string with no leading zero that denotes the number |
| DecimalText.DecimalInjective | src/components/Settings.tsx:322-323 | two numbers have the same decimal text exactly when they are equal |
| DecimalText.PadStart | src/components/Settings.tsx:322-323 | `padStart` leaves long-enough text alone, and otherwise fills on the left up to the width, keeping the text as suffix |
| DecimalText.ZeroPadValue | src/components/Settings.tsx:322-323 | zero padding keeps a digit string a digit string with the same value |
| DecimalText.Pad2 | src-tauri/src/settings.rs:24 | `%m`/`%d`, and `String(n).padStart(2, '0')` at src/components/Settings.tsx:322-323: the decimal text zero-padded to two characters; its shape and injectivity are `DecimalText.Pad2Shape` and `DecimalText.Pad2Injective` |
| DecimalText.Pad4Shape | src-tauri/src/settings.rs:25 | zero padding to four digits keeps the value, gives exactly four digits below 10000, and adds nothing from 10000 on |
| DecimalText.Pad2Shape | src-tauri/src/settings.rs:24 | a number below 100 zero-padded to two is two digits denoting the number |
| DecimalText.Pad2Injective | src-tauri/src/settings.rs:24 | two numbers below 100 pad alike exactly when they are equal |
| DecimalText.IntText | src/components/Settings.tsx:321-325 | JavaScript's text of an integer is the digits of its magnitude, with no leading zero (zero itself is exactly "0"), preceded by '-' when negative |
| DecimalText.Contains | src/components/SettingsSimpleCSS.tsx:95-98 | `includes`: the pattern is a prefix of the text or of one of its suffixes |
| DecimalText.ContainsIffOccurs | src/components/SettingsSimpleCSS.tsx:95-98 | `includes` holds exactly when the pattern occurs at some index |
| SettingsScreen.Mounted | src/components/Settings.tsx:227-234 | the screen starts with an empty root, `YYYYMMDD`, both toggles on, not loading, no toasts, and exactly the load request sent |
| SettingsScreen.OnLoadSettled | src/components/Settings.tsx:251-263 | a loaded value replaces the settings wholesale with no toast; a failure keeps the settings and adds exactly one error toast |
| SettingsScreen.OnBrowse | src/components/Settings.tsx:265-272 | browsing sets loading and sends exactly one dialog request, with settings and toasts unchanged |
| SettingsScreen.OnDialogSettled | src/components/Settings.tsx:273-283 | a non-empty pick becomes the root with one success toast; a cancel or an empty pick changes nothing; a failure adds one error toast; only the root can change, and loading ends in every case |
| SettingsScreen.OnSave | src/components/Settings.tsx:285-293 | an empty root adds one error toast and sends nothing; any other root, blank included, sends exactly one save request with the current settings and sets loading |
| SettingsScreen.OnSaveSettled | src/components/Settings.tsx:294-300 | one success or one error toast for the outcome, no rollback of the settings, and loading ends |
| SettingsScreen.OnReset | src/components/Settings.tsx:302-309 | reset clears the root, restores `YYYYMMDD`, keeps both toggles, adds one success toast, and sends nothing |
| SettingsScreen.ResetIdempotent | src/components/Settings.tsx:302-309 | resetting twice leaves the same settings as resetting once |
| SettingsScreen.OnPathTyped | src/components/Settings.tsx:311-313 | typing changes the root to the typed text and no other field |
| SettingsScreen.OnFormatPicked | src/components/Settings.tsx:315-317 | picking a card changes the date format and no other field |
| SettingsScreen.MountedInv | src/components/Settings.tsx:227-263 | the mounted screen satisfies the controller invariant |
| SettingsScreen.Enabled | src/components/Settings.tsx:352-414 | browse, save, reset and typing are enabled only while not loading; picking a format card is always enabled; a reply is enabled only while its request is outstanding |
| SettingsScreen.StepInv | src/components/Settings.tsx:352-414 | every enabled event keeps the invariant (loading exactly while a dialog or save awaits its reply, which was the last request, and one load request) and sends only user-initiated requests |
| SettingsScreen.RunInv | src/components/Settings.tsx:352-414 | the invariant holds after any run of enabled events |
| SettingsScreen.SingleFlight | src/components/Settings.tsx:352-414 | over any run, user-initiated requests sent equal replies received plus the change in requests in flight, so at most one more request than replies is ever sent |
| SettingsScreen.NoDoubleSave | src/components/Settings.tsx:405-414 | after a save is sent, neither save nor browse can be pressed until its reply |
| SettingsScreen.LoadIsNotGated | src/components/Settings.tsx:251-263 | while the initial load is awaited, browse, save and typing are enabled, and its reply overwrites an edit made meanwhile |
| SettingsScreen.DatePreview | src/components/Settings.tsx:319-326 | the preview: the padded month and day for "MMDD", the year's JavaScript text before them for any other format |
| SettingsScreen.MmddPreviewShape | src/components/Settings.tsx:319-325 | the "MMDD" preview is four digits, month then day, and equals the backend's `MMDD` folder name |
| SettingsScreen.YearPreviewShape | src/components/Settings.tsx:319-325 | any other format gives the year's JavaScript text followed by the four digits of the "MMDD" preview |
| SettingsScreen.PreviewOmitsDashes | src/components/Settings.tsx:325 | for a four-digit year the "YYYYMMDD" preview is eight digits, is the backend's folder name with its two dashes removed, and differs from it |
| SimpleSettingsScreen.Initial | src/components/SettingsSimpleCSS.tsx:5-12 | the variant starts with an empty root, `YYYYMMDD`, launch-at-login off, creation on startup on, and no message |
| SimpleSettingsScreen.OnReset | src/components/SettingsSimpleCSS.tsx:32-41 | reset sets all four fields to the starting values and the message to "设置已重置" |
| SimpleSettingsScreen.ResetForgets | src/components/SettingsSimpleCSS.tsx:32-41 | any two screens reset to the same screen, whose settings equal the starting ones |
| SimpleSettingsScreen.OnFormatChange | src/components/SettingsSimpleCSS.tsx:43-45 | the format becomes the chosen one and no other field or the message changes |
| SimpleSettingsScreen.OnPathChange | src/components/SettingsSimpleCSS.tsx:47-49 | the root becomes the typed text and no other field or the message changes |
| SimpleSettingsScreen.OnAutoStartChange | src/components/SettingsSimpleCSS.tsx:51-53 | launch-at-login becomes the checkbox state and nothing else changes |
| SimpleSettingsScreen.OnAutoCreateChange | src/components/SettingsSimpleCSS.tsx:55-57 | creation on startup becomes the checkbox state and nothing else changes |
| SimpleSettingsScreen.Announcement | src/components/SettingsSimpleCSS.tsx:14-30 | the save placeholder announces "设置保存功能将在后续版本完善" and the folder placeholder "文件夹选择功能将在后续版本完善"; neither announcement is empty or mentions a failure |
| SimpleSettingsScreen.OnPlaceholder | src/components/SettingsSimpleCSS.tsx:14-30 | saving and selecting a folder keep the settings and only set the action's announcement |
| SimpleSettingsScreen.Banner | src/components/SettingsSimpleCSS.tsx:91-98 | there is no banner exactly for the empty message, and the banner is error-styled exactly when "失败" occurs in the message |
| SimpleSettingsScreen.ShownMessagesAreSuccesses | src/components/SettingsSimpleCSS.tsx:14-41 | the messages the placeholders and reset set are all shown success-styled |
| SimpleSettingsScreen.FailureMessagesAreErrors | src/components/SettingsSimpleCSS.tsx:18-28 | the two failure messages would be shown error-styled, whatever their detail |

## Left out

- Styling, markup and toast rendering: toasts are an appended sequence of (title, body, intent).
- The clock (`Local::now`, `new Date`): the date is a parameter. Commands that read the clock twice take two dates.
- `dirs::desktop_dir` and `app_config_dir`: these are host inputs (`ConfigHost`).
- serde_json: the configuration file is a document that is either an encoding of some settings or unreadable. Serialization failure ("无法序列化配置") is not modelled because it cannot happen for this record.
- `PathBuf::join`: it is modelled for '/'-separated paths only, with no Windows separators or drive prefixes.
- Settings.Save: a failed write is modelled as either leaving the old file or leaving some garbled content the host chooses. Which bytes a partial write leaves is not modelled.
- `create_dir_all` on the dated folder: it adds one directory entry. Missing ancestors are not created and partial creation is not modelled.
- The probe file's removal: it always succeeds in the model. The source ignores its outcome.
- The settings `Mutex` and its poisoning: whether the lock could be taken is a boolean input.
- The `mpsc` channel of the folder dialog: only its three outcomes are modelled.
- Process spawning in `open_folder_in_explorer`: whether the process started is a boolean input.
- chrono's supported year range: any integer year is accepted.
- Error text shown by the screen: the host's rejection reasons are kept as strings. The conversion of the serialized `AppError` object to text (`String(err)`) is not modelled.
- React details: `StrictMode` running the load effect twice, and stale closures, are not modelled.
- `tray.rs`: its "open current folder" repeats the path choice of `Commands.ExplorerTarget`.
- `lib.rs`: bootstrap wiring, autostart on launch and window hiding are not modelled.
- Commands `show_main_window`, `hide_main_window`, `quit_app`, `enable_autostart`, `disable_autostart` and `is_autostart_enabled`: these are host and plugin calls with no logic of their own.
- The auto-start and auto-create toggles on the main screen: they are not editable there, so no event changes them.

=== FILE: calendar.dfy ===
/**
 * Proleptic Gregorian calendar dates: the values chrono's `NaiveDate` holds on
 * the backend and the local calendar fields a JavaScript `Date` reports on
 * the settings screen. The clock itself is not modelled; a date is always
 * passed in.
 */
module Calendar {

  datatype Date = Date(year: int, month: int, day: int) {

    /** True iff the month is 1..12 and the day exists in that month of that year. */
    predicate Valid() {
      1 <= month <= 12 && 1 <= day <= DaysInMonth(year, month)
    }
  }

  predicate IsLeapYear(year: int) {
    year % 4 == 0 && (year % 100 != 0 || year % 400 == 0)
  }

  function DaysInMonth(year: int, month: int): (n: int)
    requires 1 <= month <= 12
    ensures 28 <= n <= 31
    ensures n == 29 <==> month == 2 && IsLeapYear(year)
  {
    if month == 2 then (if IsLeapYear(year) then 29 else 28)
    else if month == 4 || month == 6 || month == 9 || month == 11 then 30
    else 31
  }

  /** A date that exists on the calendar. */
  type CalendarDate = d: Date | d.Valid() witness Date(2024, 3, 15)
}

=== FILE: commands.dfy ===
/**
 * The commands the backend registers for the front end (src-tauri/src/commands.rs,
 * registered at src-tauri/src/lib.rs:57-71). The settings screen calls only
 * `get_settings` and `save_settings`, and its folder dialog is the dialog
 * plugin's `open`. The backend's state is the file system, the
 * configuration file and the in-memory settings guarded by a mutex; whether
 * the mutex could be locked, what the clock reads and what the host's
 * dialogs and processes do are parameters.
 */
module Commands {
  import opened Optional
  import opened Calendar
  import opened Errors
  import opened FileSystem
  import opened Settings
  import opened Folder

  datatype Backend = Backend(fs: Fs, store: Store, state: AppSettings)

  datatype CommandStep<T> = CommandStep(result: Result<T>, backend: Backend)

  /** The error every command reports when the settings mutex cannot be locked for reading. */
  function LockError(): AppError {
    ConfigurationError("无法获取设置状态")
  }

  /** `get_settings`: exactly `AppSettings::load`; the in-memory settings are neither read nor changed. */
  function GetSettings(host: ConfigHost, b: Backend): (r: CommandStep<AppSettings>)
    ensures r.backend.state == b.state && r.backend.fs == b.fs
    ensures StoreStep(r.result, r.backend.store) == Load(host, b.store)
  {
    var l := Load(host, b.store);
    CommandStep(l.result, b.(store := l.store))
  }

  /**
   * `save_settings`: validate the submitted root, then persist the submitted
   * settings, then replace the in-memory settings, stopping at the first
   * failure. `lockOk` is whether the mutex could be locked for the update.
   */
  function SaveSettings(host: ConfigHost, b: Backend, s: AppSettings, lockOk: bool): (r: CommandStep<()>)
    ensures ValidatePath(b.fs, s).result.Err? ==>
              r == CommandStep(Err(ValidatePath(b.fs, s).result.error), b)
    ensures ValidatePath(b.fs, s).result.Ok? && Save(host, b.store, s).result.Err? ==>
              r.result == Err(Save(host, b.store, s).result.error)
              && r.backend.store == Save(host, b.store, s).store && r.backend.state == b.state
    ensures ValidatePath(b.fs, s).result.Ok? && Save(host, b.store, s).result.Ok? && !lockOk ==>
              r.result == Err(ConfigurationError("无法更新设置状态"))
              && r.backend.store == Some(Serialize(s)) && r.backend.state == b.state
    ensures r.result.Ok? <==>
              ValidatePath(b.fs, s).result.Ok? && Save(host, b.store, s).result.Ok? && lockOk
    ensures r.result.Ok? ==> r.backend.state == s && r.backend.store == Some(Serialize(s))
    ensures AgreeExcept(r.backend.fs, b.fs, ValidationProbe(s.folderPath))
  {
    var v := ValidatePath(b.fs, s);
    if v.result.Err? then
      CommandStep(Err(v.result.error), b.(fs := v.fs))
    else
      var w := Save(host, b.store, s);
      if w.result.Err? then
        CommandStep(Err(w.result.error), b.(fs := v.fs, store := w.store))
      else if !lockOk then
        CommandStep(Err(ConfigurationError("无法更新设置状态")), b.(fs := v.fs, store := w.store))
      else
        CommandStep(Ok(()), Backend(v.fs, w.store, s))
  }

  /**
   * After a successful `save_settings`, the configuration file and the
   * in-memory settings agree: loading returns exactly the settings the
   * backend now holds, which are the submitted ones.
   */
  lemma SaveSettingsSynchronizes(host: ConfigHost, b: Backend, s: AppSettings, lockOk: bool)
    requires host.canRead
    requires SaveSettings(host, b, s, lockOk).result.Ok?
    ensures var after := SaveSettings(host, b, s, lockOk).backend;
      && after.state == s
      && Load(host, after.store) == StoreStep(Ok(after.state), after.store)
  {
    SaveThenLoad(host, b.store, s);
  }

  /**
   * The path `open_folder_in_explorer` opens: the given path verbatim;
   * failing that, today's folder if it exists; failing that, the root.
   * `existsDay` and `pathDay` are what the clock reads in the existence
   * check and in the path computation, which read it separately.
   */
  function ExplorerTarget(path: Option<string>, b: Backend, lockOk: bool,
                          existsDay: CalendarDate, pathDay: CalendarDate): (r: Result<Path>)
    ensures path.Some? ==> r == Ok(path.value)
    ensures path.None? && !lockOk ==> r == Err(LockError())
    ensures path.None? && lockOk && FolderExistsForDate(b.fs, b.state, existsDay) ==>
              r == Ok(TodayFolderPath(b.state, pathDay))
    ensures path.None? && lockOk && !FolderExistsForDate(b.fs, b.state, existsDay) ==>
              r == Ok(b.state.folderPath)
  {
    match path
    case Some(p) => Ok(p)
    case None =>
      if !lockOk then Err(LockError())
      else if FolderExistsForDate(b.fs, b.state, existsDay) then Ok(TodayFolderPath(b.state, pathDay))
      else Ok(b.state.folderPath)
  }

  /** `open_folder_in_explorer`: choose the path, then open it. */
  function OpenFolderCommand(path: Option<string>, b: Backend, lockOk: bool,
                             existsDay: CalendarDate, pathDay: CalendarDate,
                             platform: Platform, spawned: bool): (r: Result<()>)
    ensures ExplorerTarget(path, b, lockOk, existsDay, pathDay).Err? ==> r == Err(LockError())
    ensures ExplorerTarget(path, b, lockOk, existsDay, pathDay).Ok? ==>
              r == OpenInExplorer(b.fs, ExplorerTarget(path, b, lockOk, existsDay, pathDay).value, platform, spawned)
  {
    match ExplorerTarget(path, b, lockOk, existsDay, pathDay)
    case Err(e) => Err(e)
    case Ok(p) => OpenInExplorer(b.fs, p, platform, spawned)
  }

  /**
   * Without an explicit path, and with the clock reading one day throughout,
   * opening never fails for want of a folder as long as the root exists:
   * either today's folder exists and is chosen, or the root is.
   */
  lemma OpenWithoutPathFindsFolder(b: Backend, today: CalendarDate, platform: Platform, spawned: bool)
    requires b.state.folderPath in b.fs
    ensures var r := OpenFolderCommand(None, b, true, today, today, platform, spawned);
      r.Err? ==> r.error.errorType == FileSystem
    ensures var t := ExplorerTarget(None, b, true, today, today);
      t.Ok? && (t.value == b.state.folderPath || IsDir(b.fs, t.value))
  {
  }

  /** `validate_folder_path`: the folder manager's check on an arbitrary path; the settings are not consulted. */
  function ValidateFolderPathCommand(b: Backend, path: Path): (r: CommandStep<()>)
    ensures r.result.Ok? <==> CanWriteFile(b.fs, path, FolderProbe(path))
    ensures r.result.Err? ==> r.backend == b
    ensures AgreeExcept(r.backend.fs, b.fs, FolderProbe(path))
    ensures r.result.Ok? ==> FolderProbe(path) !in r.backend.fs
    ensures r.backend.state == b.state && r.backend.store == b.store
  {
    var v := ValidateFolderPath(b.fs, path);
    CommandStep(v.result, b.(fs := v.fs))
  }

  datatype FolderStatus = FolderStatus(folderExists: bool, path: Path)

  /** `get_today_folder_status`: whether today's folder exists, and where it is. */
  function GetTodayFolderStatus(b: Backend, lockOk: bool, existsDay: CalendarDate, pathDay: CalendarDate)
    : (r: Result<FolderStatus>)
    ensures !lockOk ==> r == Err(LockError())
    ensures lockOk ==> r.Ok? && r.value.path == TodayFolderPath(b.state, pathDay)
    ensures lockOk ==> (r.value.folderExists <==> FolderExistsForDate(b.fs, b.state, existsDay))
  {
    if !lockOk then Err(LockError())
    else Ok(FolderStatus(FolderExistsForDate(b.fs, b.state, existsDay), TodayFolderPath(b.state, pathDay)))
  }

  /** When the clock reads one day throughout, the status says "exists" exactly when its path is a directory. */
  lemma FolderStatusConsistent(b: Backend, today: CalendarDate)
    ensures var r := GetTodayFolderStatus(b, true, today, today);
      r.Ok? && (r.value.folderExists <==> IsDir(b.fs, r.value.path))
  {
  }

  /** `create_today_folder`: lock the settings, then create the dated folder for the day the clock reads. */
  function CreateTodayFolder(b: Backend, lockOk: bool, today: CalendarDate, mkdirFailure: Option<string>)
    : (r: CommandStep<string>)
    ensures !lockOk ==> r == CommandStep(Err(LockError()), b)
    ensures lockOk ==> r.result == CreateFolderForDate(b.fs, b.state, today, mkdirFailure).result
    ensures lockOk ==> r.backend == b.(fs := CreateFolderForDate(b.fs, b.state, today, mkdirFailure).fs)
    ensures r.backend.state == b.state && r.backend.store == b.store
  {
    if !lockOk then CommandStep(Err(LockError()), b)
    else
      var c := CreateFolderForDate(b.fs, b.state, today, mkdirFailure);
      CommandStep(c.result, b.(fs := c.fs))
  }

  /**
   * When nothing occupied today's path, `create_today_folder` succeeds
   * exactly when `get_today_folder_status` then reports today's folder as
   * existing, at the path the creation returned.
   */
  lemma CreateTodayThenStatus(b: Backend, today: CalendarDate, mkdirFailure: Option<string>)
    ensures var c := CreateTodayFolder(b, true, today, mkdirFailure);
      var status := GetTodayFolderStatus(c.backend, true, today, today);
      TodayFolderPath(b.state, today) !in b.fs ==>
        && (c.result.Ok? <==> status.value.folderExists)
        && (c.result.Ok? ==> c.result.value == status.value.path)
  {
    if TodayFolderPath(b.state, today) !in b.fs {
      CreateThenExists(b.fs, b.state, today, mkdirFailure);
    }
  }

  /** What the folder dialog's callback delivers, or that the channel closed before it did. */
  datatype DialogReply = Picked(path: string) | Dismissed | ChannelClosed

  /** `select_folder_dialog`: a pick, a dismissal, or a configuration error when no reply arrives. */
  function SelectFolderDialog(reply: DialogReply): (r: Result<Option<string>>)
    ensures r.Ok? <==> !reply.ChannelClosed?
    ensures reply.Picked? ==> r == Ok(Some(reply.path))
    ensures reply.Dismissed? ==> r == Ok(None)
    ensures reply.ChannelClosed? ==> r.error == ConfigurationError("文件夹选择对话框错误")
  {
    match reply
    case Picked(p) => Ok(Some(p))
    case Dismissed => Ok(None)
    case ChannelClosed => Err(ConfigurationError("文件夹选择对话框错误"))
  }
}

=== FILE: decimal_text.dfy ===
/**
 * Character-level text helpers shared by the backend date names and the
 * settings screen: decimal rendering of integers, left padding with a fill
 * character, and substring search.
 */
module DecimalText {

  predicate IsDigit(c: char) {
    '0' <= c <= '9'
  }

  predicate AllDigits(s: string) {
    forall i :: 0 <= i < |s| ==> IsDigit(s[i])
  }

  function DigitChar(d: nat): (c: char)
    requires d < 10
    ensures IsDigit(c)
  {
    ('0' as int + d) as char
  }

  function DigitValue(c: char): (d: nat)
    requires IsDigit(c)
    ensures d < 10
    ensures DigitChar(d) == c
  {
    c as int - '0' as int
  }

  /** The number a string of decimal digits denotes; the empty string denotes 0. */
  function DecimalValue(s: string): nat
    requires AllDigits(s)
  {
    if s == [] then 0 else DecimalValue(s[..|s| - 1]) * 10 + DigitValue(s[|s| - 1])
  }

  /**
   * The base-10 rendering of `n` without leading zeros, as JavaScript's
   * `String(n)` and Rust's `Display` produce for a non-negative integer.
   */
  function Decimal(n: nat): (s: string)
    ensures 1 <= |s|
    ensures AllDigits(s)
    ensures s[0] == '0' ==> n == 0
    ensures |s| == 1 <==> n < 10
    ensures DecimalValue(s) == n
  {
    if n < 10 then [DigitChar(n)]
    else
      var s := Decimal(n / 10) + [DigitChar(n % 10)];
      assert s[..|s| - 1] == Decimal(n / 10);
      s
  }

  /** `Decimal` is the only rendering without leading zeros: equal renderings denote equal numbers. */
  lemma DecimalInjective(m: nat, n: nat)
    ensures Decimal(m) == Decimal(n) <==> m == n
  {
  }

  /**
   * `s` padded on the left with `fill` up to `width` characters; a string
   * already at least `width` long is returned as is (JavaScript's
   * `padStart` with a one-character pad, and the zero padding of chrono's
   * numeric fields).
   */
  function PadStart(s: string, width: nat, fill: char): (r: string)
    ensures |s| >= width ==> r == s
    ensures |s| < width ==> |r| == width
    ensures |r| >= |s| && r[|r| - |s|..] == s
    ensures forall i :: 0 <= i < |r| - |s| ==> r[i] == fill
    decreases width - |s|
  {
    if |s| >= width then s else PadStart([fill] + s, width, fill)
  }

  /** A leading zero does not change the number a digit string denotes. */
  lemma {:induction false} LeadingZero(s: string)
    requires AllDigits(s)
    ensures AllDigits(['0'] + s)
    ensures DecimalValue(['0'] + s) == DecimalValue(s)
  {
    var z := ['0'] + s;
    if s != [] {
      assert z[..|z| - 1] == ['0'] + s[..|s| - 1];
      LeadingZero(s[..|s| - 1]);
    } else {
      assert z[..|z| - 1] == [];
    }
  }

  /** Zero padding keeps a digit string a digit string and keeps the number it denotes. */
  lemma {:induction false} ZeroPadValue(s: string, width: nat)
    requires AllDigits(s)
    ensures AllDigits(PadStart(s, width, '0'))
    ensures DecimalValue(PadStart(s, width, '0')) == DecimalValue(s)
    decreases width - |s|
  {
    if |s| < width {
      LeadingZero(s);
      ZeroPadValue(['0'] + s, width);
    }
  }

  /** Two-digit zero padding of a number below 100, as `%m`, `%d` and `padStart(2, '0')` render it. */
  function Pad2(n: nat): string {
    PadStart(Decimal(n), 2, '0')
  }

  /** `Pad2` of a number below 100 is exactly two digits and denotes that number. */
  lemma Pad2Shape(n: nat)
    requires n < 100
    ensures |Pad2(n)| == 2
    ensures AllDigits(Pad2(n))
    ensures DecimalValue(Pad2(n)) == n
  {
    var d := Decimal(n);
    AtMostTwoDigits(n);
    assert |PadStart(d, 2, '0')| == 2;
    ZeroPadValue(d, 2);
  }

  /** A number below 100 renders in at most two digits. */
  lemma AtMostTwoDigits(n: nat)
    requires n < 100
    ensures |Decimal(n)| <= 2
  {
    if 10 <= n {
      assert |Decimal(n / 10)| == 1;
    }
  }

  /** A number from 1000 to 9999 renders as exactly four digits. */
  lemma FourDigitDecimal(n: nat)
    requires 1000 <= n <= 9999
    ensures |Decimal(n)| == 4
  {
    assert |Decimal(n / 10)| == 3 by {
      assert |Decimal(n / 100)| == 2 by {
        assert |Decimal(n / 1000)| == 1;
      }
    }
  }

  /** A number of at least 10000 renders in at least five digits. */
  lemma {:induction false} AtLeastFiveDigits(n: nat)
    requires n >= 10000
    ensures |Decimal(n)| >= 5
    decreases n
  {
    if n / 10 >= 10000 {
      AtLeastFiveDigits(n / 10);
    } else {
      FourDigitDecimal(n / 10);
    }
  }

  /** A number below 10000 renders in at most four digits. */
  lemma AtMostFourDigits(n: nat)
    requires n <= 9999
    ensures |Decimal(n)| <= 4
  {
    if n >= 10 {
      assert |Decimal(n / 10)| <= 3 by {
        if n >= 100 {
          assert |Decimal(n / 100)| <= 2 by {
            assert |Decimal(n / 1000)| == 1;
          }
        }
      }
    }
  }

  /**
   * Zero padding to four digits, the width of chrono's `%Y`: the result
   * denotes `n`, is exactly four digits below 10000, and adds nothing from
   * 10000 on.
   */
  lemma Pad4Shape(n: nat)
    ensures var p := PadStart(Decimal(n), 4, '0');
      && |p| >= 4 && AllDigits(p) && DecimalValue(p) == n
      && (n < 10000 ==> |p| == 4)
      && (n >= 10000 ==> p == Decimal(n))
  {
    ZeroPadValue(Decimal(n), 4);
    if n < 10000 {
      AtMostFourDigits(n);
    } else {
      AtLeastFiveDigits(n);
    }
  }

  /** Two numbers below 100 have the same two-digit rendering only when they are equal. */
  lemma Pad2Injective(m: nat, n: nat)
    requires m < 100 && n < 100
    ensures Pad2(m) == Pad2(n) <==> m == n
  {
    Pad2Shape(m);
    Pad2Shape(n);
  }

  lemma DigitsConcat(a: string, b: string)
    requires AllDigits(a) && AllDigits(b)
    ensures AllDigits(a + b)
  {
  }

  /** JavaScript's `String(n)` for an integer: a minus sign before the magnitude when negative. */
  function IntText(n: int): (s: string)
    ensures n >= 0 ==> |s| >= 1 && AllDigits(s) && DecimalValue(s) == n && (s[0] == '0' ==> s == "0")
    ensures n < 0 ==>
              && |s| >= 2 && s[0] == '-' && s[1] != '0'
              && AllDigits(s[1..]) && DecimalValue(s[1..]) == -n
  {
    if n < 0 then "-" + Decimal(-n) else Decimal(n)
  }

  /** True iff `t` occurs in `s` starting at index `i`. */
  predicate OccursAt(s: string, t: string, i: nat) {
    i + |t| <= |s| && s[i..i + |t|] == t
  }

  /** JavaScript's `String.prototype.includes`: does `t` occur anywhere in `s`? */
  predicate Contains(s: string, t: string)
    decreases |s|
  {
    t <= s || (s != [] && Contains(s[1..], t))
  }

  /** `Contains` holds exactly when there is an index at which `t` occurs. */
  lemma {:induction false} ContainsIffOccurs(s: string, t: string)
    ensures Contains(s, t) <==> exists i: nat :: OccursAt(s, t, i)
  {
    if t <= s {
      assert OccursAt(s, t, 0);
    } else if s != [] {
      ContainsIffOccurs(s[1..], t);
      if Contains(s[1..], t) {
        var i: nat :| OccursAt(s[1..], t, i);
        assert s[1..][i..i + |t|] == s[i + 1..i + 1 + |t|];
        assert OccursAt(s, t, i + 1);
      } else {
        assert OccursAt(s, t, 0) ==> t <= s;
        forall i: nat | 1 <= i && i + |t| <= |s|
          ensures OccursAt(s, t, i) ==> OccursAt(s[1..], t, i - 1)
        {
          assert s[1..][i - 1..i - 1 + |t|] == s[i..i + |t|];
        }
      }
    }
  }

  /** A text that lacks the first character of `t` cannot contain `t`. */
  lemma {:induction false} LacksFirstChar(s: string, t: string)
    requires t != [] && t[0] !in s
    ensures !Contains(s, t)
    decreases |s|
  {
    if s != [] {
      assert s[0] in s;
      assert !(t <= s);
      assert forall c :: c in s[1..] ==> c in s;
      LacksFirstChar(s[1..], t);
    }
  }

  /** A string contains `t` whenever `t` is followed or preceded by other text. */
  lemma ContainsInside(pre: string, t: string, post: string)
    ensures Contains(pre + t + post, t)
  {
    var s := pre + t + post;
    assert s[|pre|..|pre| + |t|] == t;
    assert OccursAt(s, t, |pre|);
    ContainsIffOccurs(s, t);
  }
}

=== FILE: errors.dfy ===
/**
 * The backend's error taxonomy (src-tauri/src/error.rs): an error carries a
 * message and one of five kinds, renders as "<kind label>: <message>", and
 * standard I/O errors are classified into three of the kinds.
 */
module Errors {

  datatype ErrorType = FileSystem | InvalidPath | PermissionDenied | Configuration | Unknown

  datatype AppError = AppError(message: string, errorType: ErrorType)

  /** The outcome of a backend operation. */
  datatype Result<T> = Ok(value: T) | Err(error: AppError)

  function MakeError(message: string, errorType: ErrorType): (e: AppError)
    ensures e.message == message && e.errorType == errorType
  {
    AppError(message, errorType)
  }

  function FileSystemError(message: string): (e: AppError)
    ensures e.message == message && e.errorType == FileSystem
  {
    MakeError(message, FileSystem)
  }

  function InvalidPathError(message: string): (e: AppError)
    ensures e.message == message && e.errorType == InvalidPath
  {
    MakeError(message, InvalidPath)
  }

  function PermissionDeniedError(message: string): (e: AppError)
    ensures e.message == message && e.errorType == PermissionDenied
  {
    MakeError(message, PermissionDenied)
  }

  function ConfigurationError(message: string): (e: AppError)
    ensures e.message == message && e.errorType == Configuration
  {
    MakeError(message, Configuration)
  }

  /** The user-facing label of each kind. */
  function Label(t: ErrorType): string {
    match t
    case FileSystem => "文件系统错误"
    case InvalidPath => "无效路径"
    case PermissionDenied => "权限不足"
    case Configuration => "配置错误"
    case Unknown => "未知错误"
  }

  /** Every label is non-empty and the five labels begin with five different characters. */
  lemma LabelsDistinct(s: ErrorType, t: ErrorType)
    ensures |Label(s)| >= 4
    ensures Label(s)[0] == Label(t)[0] <==> s == t
  {
  }

  /** `Display`: the kind's label, a colon and a space, then the message. */
  function Display(e: AppError): (r: string)
    ensures |r| == |Label(e.errorType)| + 2 + |e.message|
    ensures Label(e.errorType) <= r
    ensures r[|Label(e.errorType)|..|Label(e.errorType)| + 2] == ": "
    ensures r[|Label(e.errorType)| + 2..] == e.message
  {
    Label(e.errorType) + ": " + e.message
  }

  /** Display loses nothing: two errors render alike exactly when they are the same error. */
  lemma DisplayInjective(a: AppError, b: AppError)
    ensures Display(a) == Display(b) <==> a == b
  {
    if Display(a) == Display(b) {
      assert Display(a)[0] == Label(a.errorType)[0];
      assert Display(b)[0] == Label(b.errorType)[0];
      LabelsDistinct(a.errorType, b.errorType);
      assert a.message == Display(a)[|Label(a.errorType)| + 2..];
    }
  }

  /** The kinds of `std::io::Error` the conversion tells apart; every other kind is `OtherKind`. */
  datatype IoErrorKind = NotFoundKind | PermissionDeniedKind | OtherKind

  /** An I/O error: its kind and the text its `Display` prints. */
  datatype IoError = IoError(kind: IoErrorKind, text: string)

  /** `From<std::io::Error> for AppError`. */
  function FromIo(err: IoError): (e: AppError)
    ensures err.kind == NotFoundKind ==> e == InvalidPathError("路径不存在")
    ensures err.kind == PermissionDeniedKind ==> e == PermissionDeniedError("没有访问权限")
    ensures err.kind == OtherKind ==> e == FileSystemError("文件系统操作失败: " + err.text)
  {
    match err.kind
    case NotFoundKind => InvalidPathError("路径不存在")
    case PermissionDeniedKind => PermissionDeniedError("没有访问权限")
    case OtherKind => FileSystemError("文件系统操作失败: " + err.text)
  }

  /** The conversion's classification, read backwards: each resulting kind comes from exactly one I/O kind. */
  lemma FromIoClassifies(err: IoError)
    ensures FromIo(err).errorType == InvalidPath <==> err.kind == NotFoundKind
    ensures FromIo(err).errorType == PermissionDenied <==> err.kind == PermissionDeniedKind
    ensures FromIo(err).errorType == FileSystem <==> err.kind == OtherKind
    ensures FromIo(err).errorType != Configuration
  {
  }

  /** True of every error kind the four kind-specific constructors and the I/O conversion produce. */
  predicate Produced(e: AppError) {
    e.errorType != Unknown
  }

  /**
   * Neither the four kind-specific constructors nor the I/O conversion
   * produce `Unknown`. The general constructor `MakeError` can, when given
   * it, but the source calls `new` only from those four.
   */
  lemma NeverUnknown(message: string, err: IoError)
    ensures Produced(FileSystemError(message)) && Produced(InvalidPathError(message))
    ensures Produced(PermissionDeniedError(message)) && Produced(ConfigurationError(message))
    ensures Produced(FromIo(err))
  {
  }
}

=== FILE: filesystem.dfy ===
/**
 * The abstract file system the backend works against: a map from the paths
 * that exist to what they are (directory or file, writable or not), path
 * joining, and the "is this a writable directory" probe that both
 * `AppSettings::validate_path` and `FolderManager::validate_folder_path`
 * perform.
 */
module FileSystem {
  import opened Errors

  type Path = string

  datatype Entry = Entry(isDir: bool, writable: bool)

  /** The paths that exist, and what each one is. */
  type Fs = map<Path, Entry>

  /** The result of an operation that may also change the file system. */
  datatype FsStep<T> = FsStep(result: Result<T>, fs: Fs)

  const Separator: char := '/'

  predicate IsDir(fs: Fs, p: Path) {
    p in fs && fs[p].isDir
  }

  /** A non-empty path component that does not start at the root. */
  predicate IsRelativeName(name: string) {
    name != [] && name[0] != Separator
  }

  /**
   * `PathBuf::join` on a Unix-style path: an absolute `name` replaces the
   * root; otherwise `name` is appended after exactly one separator.
   */
  function Join(root: Path, name: string): (p: Path)
    ensures IsRelativeName(name) ==> |p| >= |name| && p[|p| - |name|..] == name
    ensures IsRelativeName(name) && root != [] ==> root < p
    ensures IsRelativeName(name) ==> p != root
  {
    if name != [] && name[0] == Separator then name
    else if root == [] then name
    else if root[|root| - 1] == Separator then root + name
    else root + [Separator] + name
  }

  /** Under one root, different relative names give different paths. */
  lemma JoinInjective(root: Path, a: string, b: string)
    requires IsRelativeName(a) && IsRelativeName(b)
    ensures Join(root, a) == Join(root, b) <==> a == b
  {
    if Join(root, a) == Join(root, b) {
      var k := |Join(root, a)| - |a|;
      assert a == Join(root, a)[k..];
      assert b == Join(root, b)[|Join(root, b)| - |b|..];
    }
  }

  /** `a` and `b` agree on every path except possibly `x`. */
  predicate AgreeExcept(a: Fs, b: Fs, x: Path) {
    a - {x} == b - {x}
  }

  /**
   * Can an empty file be written at `probe` inside `dir`? The directory must
   * be writable and the probe path must be free or a writable plain file.
   */
  predicate CanWriteFile(fs: Fs, dir: Path, probe: Path) {
    && IsDir(fs, dir)
    && fs[dir].writable
    && (probe !in fs || (!fs[probe].isDir && fs[probe].writable))
  }

  /**
   * The writable-directory check: a missing path and a path that is not a
   * directory are invalid (with the given messages), in that order; then an
   * empty probe file named `probeName` is written inside the directory and
   * removed again, and a failed write means permission is denied. The
   * removal's own outcome is ignored, as in the source.
   */
  function CheckWritableDir(fs: Fs, path: Path, probeName: string,
                            missingMessage: string, notDirMessage: string): (r: FsStep<()>)
    ensures path !in fs ==> r.result == Err(InvalidPathError(missingMessage))
    ensures path in fs && !fs[path].isDir ==> r.result == Err(InvalidPathError(notDirMessage))
    ensures IsDir(fs, path) && !CanWriteFile(fs, path, Join(path, probeName)) ==>
              r.result == Err(PermissionDeniedError("没有写入权限"))
    ensures r.result.Ok? <==> IsDir(fs, path) && CanWriteFile(fs, path, Join(path, probeName))
    ensures r.result.Err? ==> r.fs == fs
    ensures AgreeExcept(r.fs, fs, Join(path, probeName))
    ensures r.result.Ok? ==> Join(path, probeName) !in r.fs
  {
    if path !in fs then
      FsStep(Err(InvalidPathError(missingMessage)), fs)
    else if !fs[path].isDir then
      FsStep(Err(InvalidPathError(notDirMessage)), fs)
    else
      var probe := Join(path, probeName);
      if CanWriteFile(fs, path, probe) then
        // write the probe, then remove it
        FsStep(Ok(()), fs[probe := Entry(false, true)] - {probe})
      else
        FsStep(Err(PermissionDeniedError("没有写入权限")), fs)
  }

  /** The check never reports anything but an invalid path or a denied permission. */
  lemma CheckWritableDirErrorKinds(fs: Fs, path: Path, probeName: string, m1: string, m2: string)
    ensures var r := CheckWritableDir(fs, path, probeName, m1, m2);
      r.result.Err? ==> r.result.error.errorType in {InvalidPath, PermissionDenied}
  {
  }

  /** When no probe file was there beforehand, the check leaves the file system exactly as it was. */
  lemma CheckWritableDirPreserves(fs: Fs, path: Path, probeName: string, m1: string, m2: string)
    requires Join(path, probeName) !in fs
    ensures CheckWritableDir(fs, path, probeName, m1, m2).fs == fs
  {
    var r := CheckWritableDir(fs, path, probeName, m1, m2);
    if r.result.Ok? {
      assert r.fs - {Join(path, probeName)} == fs - {Join(path, probeName)};
      assert r.fs == r.fs - {Join(path, probeName)};
      assert fs == fs - {Join(path, probeName)};
    }
  }
}

=== FILE: folder.dfy ===
/**
 * The folder manager (src-tauri/src/folder.rs): where the dated folder for a
 * day lives, creating it idempotently, asking whether it exists, validating
 * an arbitrary directory, and the existence check made before a folder is
 * shown in the platform's file manager. Dates are always passed in; the
 * functions that read the clock take the date they read.
 */
module Folder {
  import opened Optional
  import opened DecimalText
  import opened Calendar
  import opened Errors
  import opened FileSystem
  import opened Settings

  /** A folder name never starts at the file-system root, so joining it always appends. */
  lemma FolderNameIsRelative(format: DateFormat, date: CalendarDate)
    ensures IsRelativeName(FormatDate(format, date))
    ensures FormatDate(format, date)[0] != '.'
  {
    var n := FormatDate(format, date);
    if format == MMDD {
      MmddNameShape(date);
      assert IsDigit(n[0]);
    } else {
      IsoNameParts(date);
      YearTextShape(date.year);
      var t := YearText(date.year);
      assert n[0] == t[0];
      assert IsDigit(t[0]) || t[0] == '-' || t[0] == '+';
    }
  }

  /** The dated folder for `date`: the folder name joined onto the configured root. */
  function DatedFolderPath(s: AppSettings, date: CalendarDate): Path {
    Join(s.folderPath, FormatDate(s.dateFormat, date))
  }

  /** The dated folder is never the root itself nor the probe file validation writes. */
  lemma DatedFolderIsNew(s: AppSettings, date: CalendarDate)
    ensures DatedFolderPath(s, date) != s.folderPath
    ensures DatedFolderPath(s, date) != ValidationProbe(s.folderPath)
  {
    FolderNameIsRelative(s.dateFormat, date);
    JoinInjective(s.folderPath, FormatDate(s.dateFormat, date), ".test_write_permission");
  }

  /**
   * `FolderManager::create_folder_for_date`: validate the root, then return
   * the dated folder's path, creating it first unless something already
   * exists there. `mkdirFailure` is the host's answer to `create_dir_all`:
   * `None` when it succeeds, or the text of the I/O error.
   */
  function CreateFolderForDate(fs: Fs, s: AppSettings, date: CalendarDate, mkdirFailure: Option<string>)
    : (r: FsStep<string>)
    ensures ValidatePath(fs, s).result.Err? ==> r == FsStep(Err(ValidatePath(fs, s).result.error), fs)
    ensures r.result.Ok? <==>
              ValidatePath(fs, s).result.Ok? && (DatedFolderPath(s, date) in fs || mkdirFailure.None?)
    ensures r.result.Ok? ==> r.result.value == DatedFolderPath(s, date) && r.result.value in r.fs
    ensures ValidatePath(fs, s).result.Ok? && DatedFolderPath(s, date) in fs ==>
              r.fs == ValidatePath(fs, s).fs
    ensures ValidatePath(fs, s).result.Ok? && DatedFolderPath(s, date) !in fs && mkdirFailure.Some? ==>
              r == FsStep(Err(FileSystemError("创建文件夹失败: " + mkdirFailure.value)), ValidatePath(fs, s).fs)
    ensures ValidatePath(fs, s).result.Ok? && DatedFolderPath(s, date) !in fs && mkdirFailure.None? ==>
              r.fs == ValidatePath(fs, s).fs[DatedFolderPath(s, date) := Entry(true, true)]
  {
    var v := ValidatePath(fs, s);
    if v.result.Err? then
      FsStep(Err(v.result.error), v.fs)
    else
      var target := DatedFolderPath(s, date);
      DatedFolderIsNew(s, date);
      if target in v.fs then
        FsStep(Ok(target), v.fs)
      else
        match mkdirFailure
        case Some(detail) => FsStep(Err(FileSystemError("创建文件夹失败: " + detail)), v.fs)
        case None => FsStep(Ok(target), v.fs[target := Entry(true, true)])
  }

  /**
   * Creating the dated folder is idempotent: once a call has succeeded,
   * repeating it on the resulting file system gives the same answer and
   * changes nothing, whatever the host would now say about `create_dir_all`.
   */
  lemma CreateIdempotent(fs: Fs, s: AppSettings, date: CalendarDate, first: Option<string>, again: Option<string>)
    ensures var r := CreateFolderForDate(fs, s, date, first);
      r.result.Ok? ==> CreateFolderForDate(r.fs, s, date, again) == r
  {
    var r := CreateFolderForDate(fs, s, date, first);
    if r.result.Err? {
      return;
    }
    var root, target := s.folderPath, DatedFolderPath(s, date);
    ValidationKeepsRoot(fs, s);
    DatedFolderIsNew(s, date);
    var v := ValidatePath(fs, s);
    assert r.result == Ok(target);
    assert r.fs == v.fs || r.fs == v.fs[target := Entry(true, true)];
    assert r.fs[root] == fs[root];
    var w := ValidatePath(r.fs, s);
    assert w.result.Ok? && w.fs == r.fs by {
      assert ValidationProbe(root) !in r.fs;
      assert CanWriteFile(r.fs, root, ValidationProbe(root));
      CheckWritableDirPreserves(r.fs, root, ".test_write_permission", "指定的路径不存在", "指定的路径不是目录");
    }
    assert target in w.fs;
  }

  /** A successful validation leaves the root itself as it was. */
  lemma ValidationKeepsRoot(fs: Fs, s: AppSettings)
    ensures var v := ValidatePath(fs, s);
      v.result.Ok? ==>
        && s.folderPath in fs && s.folderPath in v.fs && v.fs[s.folderPath] == fs[s.folderPath]
        && ValidationProbe(s.folderPath) !in v.fs
  {
    var root, probe, v := s.folderPath, ValidationProbe(s.folderPath), ValidatePath(fs, s);
    if v.result.Err? {
      return;
    }
    assert root != probe;
    assert v.fs - {probe} == fs - {probe};
    assert root in fs - {probe};
    assert (v.fs - {probe})[root] == v.fs[root];
  }

  /** `FolderManager::folder_exists_for_date`: the dated folder exists and is a directory. */
  function FolderExistsForDate(fs: Fs, s: AppSettings, date: CalendarDate): bool {
    IsDir(fs, DatedFolderPath(s, date))
  }

  /** A successful creation where nothing was in the way leaves the dated folder existing as a directory. */
  lemma CreateThenExists(fs: Fs, s: AppSettings, date: CalendarDate, mkdirFailure: Option<string>)
    requires DatedFolderPath(s, date) !in fs
    ensures var r := CreateFolderForDate(fs, s, date, mkdirFailure);
      r.result.Ok? <==> FolderExistsForDate(r.fs, s, date)
  {
    var r := CreateFolderForDate(fs, s, date, mkdirFailure);
    var v := ValidatePath(fs, s);
    DatedFolderIsNew(s, date);
    if v.result.Ok? {
      assert DatedFolderPath(s, date) !in v.fs by {
        assert v.fs - {ValidationProbe(s.folderPath)} == fs - {ValidationProbe(s.folderPath)};
        assert DatedFolderPath(s, date) !in fs - {ValidationProbe(s.folderPath)};
      }
    }
  }

  /**
   * Creation only asks whether the dated path exists, not whether it is a
   * directory: a plain file in its place is reported as the created folder,
   * while `folder_exists_for_date` says no folder exists.
   */
  lemma CreateAcceptsPlainFile(fs: Fs, s: AppSettings, date: CalendarDate, mkdirFailure: Option<string>)
    ensures var r, target := CreateFolderForDate(fs, s, date, mkdirFailure), DatedFolderPath(s, date);
      ValidatePath(fs, s).result.Ok? && target in fs && !fs[target].isDir ==>
        r.result == Ok(target) && !FolderExistsForDate(r.fs, s, date)
  {
    var v := ValidatePath(fs, s);
    if !(v.result.Ok? && DatedFolderPath(s, date) in fs && !fs[DatedFolderPath(s, date)].isDir) {
      return;
    }
    var probe, target := ValidationProbe(s.folderPath), DatedFolderPath(s, date);
    DatedFolderIsNew(s, date);
    assert target in v.fs && v.fs[target] == fs[target] by {
      assert v.fs - {probe} == fs - {probe};
      assert target in fs - {probe};
      assert (v.fs - {probe})[target] == v.fs[target];
    }
  }

  /** `FolderManager::get_today_folder_path`, given the date the clock reads. */
  function TodayFolderPath(s: AppSettings, today: CalendarDate): Path {
    DatedFolderPath(s, today)
  }

  /** The path reported for today is the path a successful creation for today returns. */
  lemma TodayPathIsCreatedPath(fs: Fs, s: AppSettings, today: CalendarDate, mkdirFailure: Option<string>)
    ensures var r := CreateFolderForDate(fs, s, today, mkdirFailure).result;
      r.Ok? ==> r.value == TodayFolderPath(s, today)
  {
  }

  /** `FolderManager::validate_folder_path`: the same check as `validate_path`, with its own probe and messages. */
  function ValidateFolderPath(fs: Fs, path: Path): (r: FsStep<()>)
    ensures path !in fs ==> r.result == Err(InvalidPathError("路径不存在"))
    ensures path in fs && !fs[path].isDir ==> r.result == Err(InvalidPathError("路径不是目录"))
    ensures IsDir(fs, path) && !CanWriteFile(fs, path, FolderProbe(path)) ==>
              r.result == Err(PermissionDeniedError("没有写入权限"))
    ensures r.result.Ok? <==> CanWriteFile(fs, path, FolderProbe(path))
    ensures r.result.Err? ==> r.fs == fs
    ensures AgreeExcept(r.fs, fs, FolderProbe(path))
    ensures r.result.Ok? ==> FolderProbe(path) !in r.fs
  {
    CheckWritableDir(fs, path, ".smart_folder_zen_test", "路径不存在", "路径不是目录")
  }

  /** The probe file `validate_folder_path` writes and removes. */
  function FolderProbe(root: Path): Path {
    Join(root, ".smart_folder_zen_test")
  }

  /**
   * `validate_folder_path` classifies a root exactly as `validate_path`
   * does: always for the invalid-path cases, and for the rest as long as
   * neither probe file name is already taken.
   */
  lemma ValidationsAgree(fs: Fs, s: AppSettings)
    ensures var a, b := ValidateFolderPath(fs, s.folderPath).result, ValidatePath(fs, s).result;
      (a.Err? && a.error.errorType == InvalidPath) <==> (b.Err? && b.error.errorType == InvalidPath)
    ensures FolderProbe(s.folderPath) !in fs && ValidationProbe(s.folderPath) !in fs ==>
      var a, b := ValidateFolderPath(fs, s.folderPath).result, ValidatePath(fs, s).result;
      a.Ok? == b.Ok? && (a.Err? ==> a.error.errorType == b.error.errorType)
  {
  }

  datatype Platform = Windows | MacOs | Linux | OtherPlatform

  /**
   * `FolderManager::open_folder_in_explorer`: a missing path is invalid;
   * otherwise the platform's file manager is launched (`spawned` is whether
   * the process started). A platform without a file manager command does
   * nothing and succeeds.
   */
  function OpenInExplorer(fs: Fs, path: Path, platform: Platform, spawned: bool): (r: Result<()>)
    ensures path !in fs ==> r == Err(InvalidPathError("文件夹不存在"))
    ensures r.Ok? <==> path in fs && (spawned || platform == OtherPlatform)
    ensures r.Err? && path in fs ==> r.error.errorType == FileSystem
  {
    if path !in fs then Err(InvalidPathError("文件夹不存在"))
    else if platform == OtherPlatform || spawned then Ok(())
    else if platform == MacOs then Err(FileSystemError("无法打开Finder"))
    else Err(FileSystemError("无法打开文件管理器"))
  }
}

=== FILE: optional.dfy ===
/** A value that may be absent: Rust's `Option` and TypeScript's `T | null`. */
module Optional {

  datatype Option<+T> = None | Some(value: T) {

    /** The carried value, or `default` when there is none. */
    function GetOr(default: T): (r: T)
      ensures Some? ==> r == value
      ensures None? ==> r == default
    {
      match this
      case Some(v) => v
      case None => default
    }
  }
}

=== FILE: settings.dfy ===
/**
 * The settings value and its persistence (src-tauri/src/settings.rs): the
 * four-field settings record, the folder name a date format gives a date,
 * the default settings, loading and saving through an abstract
 * configuration store, and the writable-directory validation of the root.
 */
module Settings {
  import opened Optional
  import opened DecimalText
  import opened Calendar
  import opened Errors
  import opened FileSystem

  datatype DateFormat = MMDD | YYYYMMDD

  /** The one persisted entity; the TypeScript `AppSettings` interface has the same shape. */
  datatype AppSettings = AppSettings(
    folderPath: string,
    dateFormat: DateFormat,
    autoStart: bool,
    autoCreateOnStartup: bool)

  datatype Field = FolderPathField | DateFormatField | AutoStartField | AutoCreateField

  /** The fields in which two settings values differ. */
  function ChangedFields(a: AppSettings, b: AppSettings): (r: set<Field>)
    ensures r == {} <==> a == b
    ensures FolderPathField in r <==> a.folderPath != b.folderPath
    ensures DateFormatField in r <==> a.dateFormat != b.dateFormat
    ensures AutoStartField in r <==> a.autoStart != b.autoStart
    ensures AutoCreateField in r <==> a.autoCreateOnStartup != b.autoCreateOnStartup
  {
    (if a.folderPath != b.folderPath then {FolderPathField} else {})
    + (if a.dateFormat != b.dateFormat then {DateFormatField} else {})
    + (if a.autoStart != b.autoStart then {AutoStartField} else {})
    + (if a.autoCreateOnStartup != b.autoCreateOnStartup then {AutoCreateField} else {})
  }

  // ---------------------------------------------------------------------
  // Folder names
  // ---------------------------------------------------------------------

  /**
   * chrono's `%Y`: a year in 0..9999 is zero-padded to four digits; any
   * other year carries an explicit sign before its magnitude, itself
   * zero-padded to four digits (the ISO 8601 rule chrono follows).
   */
  function YearText(year: int): string {
    if 0 <= year <= 9999 then PadStart(Decimal(year), 4, '0')
    else (if year < 0 then "-" else "+") + PadStart(Decimal(if year < 0 then -year else year), 4, '0')
  }

  /**
   * The year text, read back: four digits for 0..9999; otherwise a sign and
   * the magnitude, zero-padded to exactly four digits when below 10000 and
   * unpadded from 10000 on.
   */
  lemma YearTextShape(year: int)
    ensures var t := YearText(year);
      0 <= year <= 9999 ==> |t| == 4 && AllDigits(t) && DecimalValue(t) == year
    ensures var t := YearText(year);
      !(0 <= year <= 9999) ==>
        var m: nat := if year < 0 then -year else year;
        && |t| >= 5
        && t[0] == (if year < 0 then '-' else '+')
        && AllDigits(t[1..])
        && DecimalValue(t[1..]) == m
        && (m < 10000 ==> |t| == 5)
        && (m >= 10000 ==> t[1..] == Decimal(m))
  {
    if 0 <= year <= 9999 {
      PlainYearText(year);
    } else {
      SignedYearText(year);
    }
  }

  lemma PlainYearText(year: int)
    requires 0 <= year <= 9999
    ensures var t := YearText(year);
      |t| == 4 && AllDigits(t) && DecimalValue(t) == year
  {
    ZeroPadValue(Decimal(year), 4);
    AtMostFourDigits(year);
  }

  /** A one-character sign before a magnitude zero-padded to four digits. */
  lemma SignedText(sign: string, m: nat)
    requires |sign| == 1
    ensures var t := sign + PadStart(Decimal(m), 4, '0');
      && |t| >= 5
      && t[0] == sign[0]
      && AllDigits(t[1..])
      && DecimalValue(t[1..]) == m
      && (m < 10000 ==> |t| == 5)
      && (m >= 10000 ==> t[1..] == Decimal(m))
  {
    var p := PadStart(Decimal(m), 4, '0');
    Pad4Shape(m);
    assert (sign + p)[1..] == p;
  }

  lemma SignedYearText(year: int)
    requires !(0 <= year <= 9999)
    ensures var t := YearText(year);
      var m: nat := if year < 0 then -year else year;
      && |t| >= 5
      && t[0] == (if year < 0 then '-' else '+')
      && AllDigits(t[1..])
      && DecimalValue(t[1..]) == m
      && (m < 10000 ==> |t| == 5)
      && (m >= 10000 ==> t[1..] == Decimal(m))
  {
    var m: nat := if year < 0 then -year else year;
    var sign := if year < 0 then "-" else "+";
    assert YearText(year) == sign + PadStart(Decimal(m), 4, '0');
    SignedText(sign, m);
  }

  /** Different years never render alike. */
  lemma YearTextInjective(a: int, b: int)
    ensures YearText(a) == YearText(b) <==> a == b
  {
    if YearText(a) == YearText(b) {
      var t := YearText(a);
      YearTextShape(a);
      YearTextShape(b);
      assert (0 <= a <= 9999) == (0 <= b <= 9999) by {
        assert 0 <= a <= 9999 ==> |t| == 4;
        assert 0 <= b <= 9999 ==> |t| == 4;
      }
      if !(0 <= a <= 9999) {
        assert (a < 0) == (b < 0) by {
          assert t[0] == (if a < 0 then '-' else '+');
          assert t[0] == (if b < 0 then '-' else '+');
        }
      }
    }
  }

  /**
   * `DateFormat::format_date`: `MMDD` is the zero-padded month then day
   * (`%m%d`); `YYYYMMDD` is `%Y-%m-%d`, year, month and day separated by
   * dashes, whatever its name suggests.
   */
  function FormatDate(format: DateFormat, date: CalendarDate): string {
    match format
    case MMDD => Pad2(date.month) + Pad2(date.day)
    case YYYYMMDD => YearText(date.year) + "-" + Pad2(date.month) + "-" + Pad2(date.day)
  }

  /** Where the pieces of a two-part name sit. */
  lemma PairParts(a: string, b: string)
    requires |a| == 2 && |b| == 2
    ensures var n := a + b;
      |n| == 4 && n[..2] == a && n[2..] == b
  {
  }

  /** Where the pieces of a dashed three-part name sit. */
  lemma DashedParts(t: string, a: string, b: string)
    requires |a| == 2 && |b| == 2
    ensures var n, k := t + "-" + a + "-" + b, |t|;
      && |n| == k + 6
      && n[..k] == t
      && n[k] == '-' && n[k + 3] == '-'
      && n[k + 1..k + 3] == a
      && n[k + 4..] == b
  {
  }

  /** An `MMDD` name is four digits: the month in the first two, the day in the last two. */
  lemma MmddNameShape(date: CalendarDate)
    ensures var n := FormatDate(MMDD, date);
      && |n| == 4
      && AllDigits(n)
      && AllDigits(n[..2]) && DecimalValue(n[..2]) == date.month
      && AllDigits(n[2..]) && DecimalValue(n[2..]) == date.day
  {
    Pad2Shape(date.month);
    Pad2Shape(date.day);
    PairParts(Pad2(date.month), Pad2(date.day));
    DigitsConcat(Pad2(date.month), Pad2(date.day));
  }

  /** Two dates get the same `MMDD` name exactly when they share month and day, whatever their years. */
  lemma MmddNameIgnoresYear(a: CalendarDate, b: CalendarDate)
    ensures FormatDate(MMDD, a) == FormatDate(MMDD, b) <==> a.month == b.month && a.day == b.day
  {
    MmddNameShape(a);
    MmddNameShape(b);
  }

  /** The pieces of a `YYYYMMDD` name: year text, dash, two-digit month, dash, two-digit day. */
  lemma IsoNameParts(date: CalendarDate)
    ensures var n, k := FormatDate(YYYYMMDD, date), |YearText(date.year)|;
      && |n| == k + 6
      && n[..k] == YearText(date.year)
      && n[k] == '-' && n[k + 3] == '-'
      && n[k + 1..k + 3] == Pad2(date.month)
      && n[k + 4..] == Pad2(date.day)
  {
    var t, m, d := YearText(date.year), Pad2(date.month), Pad2(date.day);
    assert FormatDate(YYYYMMDD, date) == t + "-" + m + "-" + d;
    Pad2Shape(date.month);
    Pad2Shape(date.day);
    DashedParts(t, m, d);
  }

  /** For a year in 0..9999 a `YYYYMMDD` name is ten characters, "YYYY-MM-DD", denoting the date's fields. */
  lemma IsoNameShape(date: CalendarDate)
    requires 0 <= date.year <= 9999
    ensures var n := FormatDate(YYYYMMDD, date);
      && |n| == 10
      && n[4] == '-' && n[7] == '-'
      && AllDigits(n[..4]) && DecimalValue(n[..4]) == date.year
      && AllDigits(n[5..7]) && DecimalValue(n[5..7]) == date.month
      && AllDigits(n[8..]) && DecimalValue(n[8..]) == date.day
  {
    IsoNameParts(date);
    YearTextShape(date.year);
    Pad2Shape(date.month);
    Pad2Shape(date.day);
  }

  /** Every date has its own `YYYYMMDD` name, whatever its year. */
  lemma IsoNameInjective(a: CalendarDate, b: CalendarDate)
    ensures FormatDate(YYYYMMDD, a) == FormatDate(YYYYMMDD, b) <==> a == b
  {
    if FormatDate(YYYYMMDD, a) == FormatDate(YYYYMMDD, b) {
      IsoNameParts(a);
      IsoNameParts(b);
      YearTextInjective(a.year, b.year);
      Pad2Injective(a.month, b.month);
      Pad2Injective(a.day, b.day);
    }
  }

  lemma ExampleYear()
    ensures YearText(2024) == "2024"
  {
    assert Decimal(2) == "2";
    assert Decimal(20) == "20";
    assert Decimal(202) == "202";
    assert Decimal(2024) == "2024";
  }

  lemma ExampleMonthAndDay()
    ensures Pad2(3) == "03" && Pad2(15) == "15"
  {
    assert Decimal(3) == "3";
    assert Decimal(1) == "1";
    assert Decimal(15) == "15";
  }

  lemma ExampleText(t: string, m: string, d: string)
    requires t == "2024" && m == "03" && d == "15"
    ensures m + d == "0315"
    ensures t + "-" + m + "-" + d == "2024-03-15"
  {
  }

  lemma ExampleNames(t: string, m: string, d: string)
    requires t == YearText(2024) && m == Pad2(3) && d == Pad2(15)
    ensures m + d == "0315"
    ensures t + "-" + m + "-" + d == "2024-03-15"
  {
    ExampleYear();
    ExampleMonthAndDay();
    ExampleText(t, m, d);
  }

  /** The backend's own examples: 15 March 2024 is "0315" and "2024-03-15". */
  lemma FolderNameExamples()
    ensures FormatDate(MMDD, Date(2024, 3, 15)) == "0315"
    ensures FormatDate(YYYYMMDD, Date(2024, 3, 15)) == "2024-03-15"
  {
    var date: CalendarDate := Date(2024, 3, 15);
    var t, m, d := YearText(date.year), Pad2(date.month), Pad2(date.day);
    assert FormatDate(MMDD, date) == m + d;
    assert FormatDate(YYYYMMDD, date) == t + "-" + m + "-" + d;
    ExampleNames(t, m, d);
  }

  // ---------------------------------------------------------------------
  // Defaults and persistence
  // ---------------------------------------------------------------------

  /**
   * `Default`: the desktop directory as root (or "." when the host has
   * none), the dashed `YYYYMMDD` format, and both toggles on.
   */
  function DefaultSettings(desktop: Option<string>): (s: AppSettings)
    ensures s.dateFormat == YYYYMMDD
    ensures s.autoStart && s.autoCreateOnStartup
    ensures desktop.Some? ==> s.folderPath == desktop.value
    ensures desktop.None? ==> s.folderPath == "."
  {
    AppSettings(desktop.GetOr("."), YYYYMMDD, true, true)
  }

  /** The content of the configuration file: a well-formed encoding of some settings, or anything else. */
  datatype Document = Json(settings: AppSettings) | Garbled(raw: string)

  function Serialize(s: AppSettings): Document {
    Json(s)
  }

  function Parse(d: Document): Option<AppSettings> {
    match d
    case Json(s) => Some(s)
    case Garbled(_) => None
  }

  /** The encoding round trip everything else relies on. */
  lemma ParseSerialize(s: AppSettings)
    ensures Parse(Serialize(s)) == Some(s)
  {
  }

  /** The configuration file: `None` while it does not exist. */
  type Store = Option<Document>

  /** What the host lets the persistence code do; each flag is the outcome of one host call. */
  datatype ConfigHost = ConfigHost(
    configDirAvailable: bool,   // `app_config_dir` resolves
    desktop: Option<string>,    // `dirs::desktop_dir`
    canRead: bool,              // `read_to_string` of an existing file succeeds
    canCreateDir: bool,         // `create_dir_all` of the configuration directory succeeds
    canWrite: bool,             // `fs::write` of the file succeeds
    tornWrite: Option<string>)  // when it fails: what it left after truncating the file, or None if it never opened it

  datatype StoreStep<T> = StoreStep(result: Result<T>, store: Store)

  /**
   * `AppSettings::save`: resolve the configuration path, create its
   * directory, write the whole encoding. Every failure is a configuration
   * error. A failure before the write leaves the store as it was; `fs::write`
   * truncates the file before writing, so a write that fails part-way
   * leaves whatever it got to, which no longer decodes.
   */
  function Save(host: ConfigHost, store: Store, s: AppSettings): (r: StoreStep<()>)
    ensures r.result.Ok? <==> host.configDirAvailable && host.canCreateDir && host.canWrite
    ensures r.result.Ok? ==> r.store == Some(Serialize(s))
    ensures r.result.Err? ==> r.result.error.errorType == Configuration
    ensures r.result.Err? && !(host.configDirAvailable && host.canCreateDir) ==> r.store == store
    ensures r.result.Err? && host.tornWrite.None? ==> r.store == store
    ensures r.result.Err? && host.configDirAvailable && host.canCreateDir && host.tornWrite.Some? ==>
              r.store == Some(Garbled(host.tornWrite.value))
  {
    if !host.configDirAvailable then
      StoreStep(Err(ConfigurationError("无法获取配置目录")), store)
    else if !host.canCreateDir then
      StoreStep(Err(ConfigurationError("无法创建配置目录")), store)
    else if !host.canWrite then
      var left := match host.tornWrite case None => store case Some(raw) => Some(Garbled(raw));
      StoreStep(Err(ConfigurationError("无法保存配置文件")), left)
    else
      StoreStep(Ok(()), Some(Serialize(s)))
  }

  /**
   * `AppSettings::load`: with no configuration file, save the defaults and
   * return them; otherwise read and decode the file, all or nothing.
   */
  function Load(host: ConfigHost, store: Store): (r: StoreStep<AppSettings>)
    ensures r.result.Err? ==> r.result.error.errorType == Configuration
    ensures store.Some? ==> r.store == store
    ensures store.Some? ==>
              (r.result.Ok? <==> host.configDirAvailable && host.canRead && Parse(store.value).Some?)
    ensures store.Some? && r.result.Ok? ==> Parse(store.value) == Some(r.result.value)
    ensures store.None? ==> (r.result.Ok? <==> Save(host, store, DefaultSettings(host.desktop)).result.Ok?)
    ensures store.None? && r.result.Ok? ==>
              r.result.value == DefaultSettings(host.desktop) && r.store == Some(Serialize(r.result.value))
    ensures store.None? && r.result.Err? ==> r.store == Save(host, store, DefaultSettings(host.desktop)).store
  {
    if !host.configDirAvailable then
      StoreStep(Err(ConfigurationError("无法获取配置目录")), store)
    else
      match store
      case None =>
        var d := DefaultSettings(host.desktop);
        var w := Save(host, store, d);
        if w.result.Err? then StoreStep(Err(w.result.error), w.store) else StoreStep(Ok(d), w.store)
      case Some(doc) =>
        if !host.canRead then
          StoreStep(Err(ConfigurationError("无法读取配置文件")), store)
        else
          match Parse(doc)
          case None => StoreStep(Err(ConfigurationError("配置文件格式错误")), store)
          case Some(s) => StoreStep(Ok(s), store)
  }

  /** Saving then loading gives back exactly what was saved, and loading leaves the store alone. */
  lemma SaveThenLoad(host: ConfigHost, store: Store, s: AppSettings)
    requires host.canRead
    requires Save(host, store, s).result.Ok?
    ensures var saved := Save(host, store, s).store;
      Load(host, saved) == StoreStep(Ok(s), saved)
  {
    ParseSerialize(s);
  }

  /**
   * A save whose write fails part-way costs the user their settings: the
   * next load, even by a host that can read, reports a malformed file.
   */
  lemma TornSaveBreaksLoad(host: ConfigHost, store: Store, s: AppSettings)
    requires host.configDirAvailable && host.canCreateDir && !host.canWrite && host.tornWrite.Some?
    requires host.canRead
    ensures var w := Save(host, store, s);
      && w.result.Err?
      && Load(host, w.store).result == Err(ConfigurationError("配置文件格式错误"))
  {
  }

  /** A first load that created the defaults is repeated identically by a second load. */
  lemma LoadIdempotent(host: ConfigHost, store: Store)
    requires host.canRead
    requires Load(host, store).result.Ok?
    ensures var first := Load(host, store);
      Load(host, first.store) == first
  {
    var first := Load(host, store);
    if store.None? {
      SaveThenLoad(host, store, DefaultSettings(host.desktop));
    }
  }

  /**
   * `AppSettings::validate_path`: the root must exist, then be a directory,
   * then accept a probe file.
   */
  function ValidatePath(fs: Fs, s: AppSettings): (r: FsStep<()>)
    ensures s.folderPath !in fs ==> r.result == Err(InvalidPathError("指定的路径不存在"))
    ensures s.folderPath in fs && !fs[s.folderPath].isDir ==>
              r.result == Err(InvalidPathError("指定的路径不是目录"))
    ensures IsDir(fs, s.folderPath) && !CanWriteFile(fs, s.folderPath, ValidationProbe(s.folderPath)) ==>
              r.result == Err(PermissionDeniedError("没有写入权限"))
    ensures r.result.Ok? <==> CanWriteFile(fs, s.folderPath, ValidationProbe(s.folderPath))
    ensures r.result.Err? ==> r.fs == fs
    ensures AgreeExcept(r.fs, fs, ValidationProbe(s.folderPath))
    ensures r.result.Ok? ==> ValidationProbe(s.folderPath) !in r.fs
  {
    CheckWritableDir(fs, s.folderPath, ".test_write_permission", "指定的路径不存在", "指定的路径不是目录")
  }

  /** The probe file `validate_path` writes and removes inside the root. */
  function ValidationProbe(root: Path): Path {
    Join(root, ".test_write_permission")
  }
}

=== FILE: settings_screen.dfy ===
/**
 * The settings screen's controller (src/components/Settings.tsx) as a
 * guarded transition system. Its state is the settings record shown, the
 * `isLoading` flag, the toasts shown so far and the host requests sent so
 * far, together with which requests are still awaiting their reply. Each
 * `await` splits a handler in two: the request step and, later, the step
 * that handles the reply, whose outcome is an input. Controls rendered with
 * `disabled={isLoading}` produce no events while loading; that is the
 * screen's only concurrency control.
 */
module SettingsScreen {
  import opened Optional
  import opened DecimalText
  import opened Calendar
  import opened Settings

  datatype Intent = Success | Error | Info

  datatype Toast = Toast(title: string, body: string, intent: Intent)

  /** Requests sent across the host boundary. */
  datatype HostCall = GetSettingsCall | OpenDialogCall | SaveSettingsCall(submitted: AppSettings)

  /** The user operation whose request is awaiting its reply, if any. */
  datatype Busy = Idle | Picking | Saving(submitted: AppSettings)

  datatype Screen = Screen(
    settings: AppSettings,
    isLoading: bool,
    toasts: seq<Toast>,
    calls: seq<HostCall>,
    loadPending: bool,
    busy: Busy)

  /** How a host request ends: with a value, or rejected with the text the screen shows for it. */
  datatype Reply<T> = Resolved(value: T) | Rejected(reason: string)

  /** Exactly one toast, of the given intent, was appended. */
  predicate OneToast(before: Screen, after: Screen, intent: Intent) {
    && |after.toasts| == |before.toasts| + 1
    && after.toasts[..|before.toasts|] == before.toasts
    && after.toasts[|before.toasts|].intent == intent
  }

  /** The screen right after mounting: the built-in settings shown, not loading, and the load request sent. */
  function Mounted(): (m: Screen)
    ensures m.settings.folderPath == "" && m.settings.dateFormat == YYYYMMDD
    ensures m.settings.autoStart && m.settings.autoCreateOnStartup
    ensures !m.isLoading && m.toasts == [] && m.calls == [GetSettingsCall]
  {
    Screen(AppSettings("", YYYYMMDD, true, true), false, [], [GetSettingsCall], true, Idle)
  }

  /** The reply to the load request: replace the settings wholesale, or keep them and say so. */
  function OnLoadSettled(m: Screen, reply: Reply<AppSettings>): (r: Screen)
    ensures reply.Resolved? ==> r.settings == reply.value && r.toasts == m.toasts
    ensures reply.Rejected? ==> r.settings == m.settings && OneToast(m, r, Error)
    ensures !r.loadPending
    ensures r.isLoading == m.isLoading && r.busy == m.busy && r.calls == m.calls
  {
    match reply
    case Resolved(s) => m.(settings := s, loadPending := false)
    case Rejected(_) =>
      m.(toasts := m.toasts + [Toast("加载失败", "无法加载保存的设置，使用默认设置", Error)], loadPending := false)
  }

  /** `handleSelectFolder` up to its `await`: set loading and open the folder dialog. */
  function OnBrowse(m: Screen): (r: Screen)
    ensures r.isLoading && r.busy == Picking
    ensures r.calls == m.calls + [OpenDialogCall]
    ensures r.settings == m.settings && r.toasts == m.toasts && r.loadPending == m.loadPending
  {
    m.(isLoading := true, calls := m.calls + [OpenDialogCall], busy := Picking)
  }

  /**
   * The rest of `handleSelectFolder`: a non-empty chosen path becomes the
   * root; no path or an empty one is a silent no-op; a failure is shown.
   * Loading ends in every case.
   */
  function OnDialogSettled(m: Screen, reply: Reply<Option<string>>): (r: Screen)
    ensures reply.Resolved? && reply.value.Some? && reply.value.value != "" ==>
              r.settings == m.settings.(folderPath := reply.value.value) && OneToast(m, r, Success)
    ensures reply.Resolved? && (reply.value.None? || reply.value.value == "") ==>
              r.settings == m.settings && r.toasts == m.toasts
    ensures reply.Rejected? ==> r.settings == m.settings && OneToast(m, r, Error)
    ensures ChangedFields(m.settings, r.settings) <= {FolderPathField}
    ensures !r.isLoading && r.busy == Idle
    ensures r.calls == m.calls && r.loadPending == m.loadPending
  {
    var done := m.(isLoading := false, busy := Idle);
    match reply
    case Resolved(Some(p)) =>
      if p != "" then
        done.(settings := m.settings.(folderPath := p),
              toasts := m.toasts + [Toast("文件夹已选择", "路径设置成功", Success)])
      else done
    case Resolved(None) => done
    case Rejected(reason) =>
      done.(toasts := m.toasts + [Toast("选择失败", "无法选择文件夹: " + reason, Error)])
  }

  /**
   * `handleSave` up to its `await`: an empty root is refused on the spot
   * with one error toast and no request; any other root, blank or not, is
   * submitted as the settings now stand.
   */
  function OnSave(m: Screen): (r: Screen)
    ensures m.settings.folderPath == "" ==>
              && OneToast(m, r, Error)
              && r.calls == m.calls && r.busy == m.busy && r.isLoading == m.isLoading
    ensures m.settings.folderPath != "" ==>
              && r.calls == m.calls + [SaveSettingsCall(m.settings)]
              && r.isLoading && r.busy == Saving(m.settings)
              && r.toasts == m.toasts
    ensures r.settings == m.settings && r.loadPending == m.loadPending
  {
    if m.settings.folderPath == "" then
      m.(toasts := m.toasts + [Toast("保存失败", "请先选择文件夹路径", Error)])
    else
      m.(isLoading := true, calls := m.calls + [SaveSettingsCall(m.settings)], busy := Saving(m.settings))
  }

  /** The rest of `handleSave`: one toast for the outcome, loading ends, and nothing is rolled back. */
  function OnSaveSettled(m: Screen, reply: Reply<()>): (r: Screen)
    ensures reply.Resolved? ==> OneToast(m, r, Success)
    ensures reply.Rejected? ==> OneToast(m, r, Error)
    ensures r.settings == m.settings
    ensures !r.isLoading && r.busy == Idle
    ensures r.calls == m.calls && r.loadPending == m.loadPending
  {
    var done := m.(isLoading := false, busy := Idle);
    match reply
    case Resolved(_) => done.(toasts := m.toasts + [Toast("保存成功", "设置已成功保存", Success)])
    case Rejected(reason) =>
      done.(toasts := m.toasts + [Toast("保存失败", "无法保存设置: " + reason, Error)])
  }

  /** `handleReset`: clear the root and restore `YYYYMMDD`, keep both toggles, say so; no request. */
  function OnReset(m: Screen): (r: Screen)
    ensures r.settings.folderPath == "" && r.settings.dateFormat == YYYYMMDD
    ensures r.settings.autoStart == m.settings.autoStart
    ensures r.settings.autoCreateOnStartup == m.settings.autoCreateOnStartup
    ensures OneToast(m, r, Success)
    ensures r.calls == m.calls && r.isLoading == m.isLoading && r.busy == m.busy
    ensures r.loadPending == m.loadPending
  {
    m.(settings := m.settings.(folderPath := "", dateFormat := YYYYMMDD),
       toasts := m.toasts + [Toast("重置成功", "设置已恢复到默认值", Success)])
  }

  /** Resetting twice is resetting once, as far as the settings go. */
  lemma ResetIdempotent(m: Screen)
    ensures OnReset(OnReset(m)).settings == OnReset(m).settings
  {
  }

  /** `handlePathChange`: the typed text becomes the root. */
  function OnPathTyped(m: Screen, value: string): (r: Screen)
    ensures r.settings.folderPath == value
    ensures ChangedFields(m.settings, r.settings) <= {FolderPathField}
    ensures r.toasts == m.toasts && r.calls == m.calls
    ensures r.isLoading == m.isLoading && r.busy == m.busy && r.loadPending == m.loadPending
  {
    m.(settings := m.settings.(folderPath := value))
  }

  /** `handleDateFormatChange`: the clicked card's format becomes the date format. */
  function OnFormatPicked(m: Screen, format: DateFormat): (r: Screen)
    ensures r.settings.dateFormat == format
    ensures ChangedFields(m.settings, r.settings) <= {DateFormatField}
    ensures r.toasts == m.toasts && r.calls == m.calls
    ensures r.isLoading == m.isLoading && r.busy == m.busy && r.loadPending == m.loadPending
  {
    m.(settings := m.settings.(dateFormat := format))
  }

  // ---------------------------------------------------------------------
  // Events, enabledness and runs
  // ---------------------------------------------------------------------

  datatype Event =
    | LoadSettled(loadReply: Reply<AppSettings>)
    | BrowseClicked
    | DialogSettled(dialogReply: Reply<Option<string>>)
    | SaveClicked
    | SaveSettled(saveReply: Reply<()>)
    | ResetClicked
    | PathTyped(value: string)
    | FormatPicked(format: DateFormat)

  /**
   * Which events can happen: a reply only to a request awaiting one; the
   * path input and the browse, reset and save buttons only while not
   * loading; the date format cards at any time.
   */
  predicate Enabled(m: Screen, e: Event) {
    match e
    case LoadSettled(_) => m.loadPending
    case DialogSettled(_) => m.busy == Picking
    case SaveSettled(_) => m.busy.Saving?
    case BrowseClicked => !m.isLoading
    case SaveClicked => !m.isLoading
    case ResetClicked => !m.isLoading
    case PathTyped(_) => !m.isLoading
    case FormatPicked(_) => true
  }

  function Step(m: Screen, e: Event): Screen
    requires Enabled(m, e)
  {
    match e
    case LoadSettled(reply) => OnLoadSettled(m, reply)
    case BrowseClicked => OnBrowse(m)
    case DialogSettled(reply) => OnDialogSettled(m, reply)
    case SaveClicked => OnSave(m)
    case SaveSettled(reply) => OnSaveSettled(m, reply)
    case ResetClicked => OnReset(m)
    case PathTyped(value) => OnPathTyped(m, value)
    case FormatPicked(format) => OnFormatPicked(m, format)
  }

  /** Every event of `events` is enabled when it happens, starting from `m`. */
  predicate ValidRun(m: Screen, events: seq<Event>)
    decreases |events|
  {
    events == [] || (Enabled(m, events[0]) && ValidRun(Step(m, events[0]), events[1..]))
  }

  function Run(m: Screen, events: seq<Event>): Screen
    requires ValidRun(m, events)
    decreases |events|
  {
    if events == [] then m else Run(Step(m, events[0]), events[1..])
  }

  /** How many of `calls` are user-initiated requests (a folder dialog or a save). */
  function UserCalls(calls: seq<HostCall>): nat {
    if calls == [] then 0
    else UserCalls(calls[..|calls| - 1]) + (if calls[|calls| - 1] == GetSettingsCall then 0 else 1)
  }

  /** How many of `calls` are load requests. */
  function LoadCalls(calls: seq<HostCall>): nat {
    if calls == [] then 0
    else LoadCalls(calls[..|calls| - 1]) + (if calls[|calls| - 1] == GetSettingsCall then 1 else 0)
  }

  /** How many of `events` are replies to user-initiated requests. */
  function Settlements(events: seq<Event>): nat {
    if events == [] then 0
    else (if events[0].DialogSettled? || events[0].SaveSettled? then 1 else 0) + Settlements(events[1..])
  }

  function InFlight(m: Screen): nat {
    if m.busy == Idle then 0 else 1
  }

  /**
   * The controller's invariant: `isLoading` is set exactly while a dialog or
   * a save awaits its reply, the awaited request is the last one sent, and
   * exactly one load request has been sent.
   */
  predicate Inv(m: Screen) {
    && (m.isLoading <==> m.busy != Idle)
    && (m.busy == Picking ==> |m.calls| > 0 && m.calls[|m.calls| - 1] == OpenDialogCall)
    && (m.busy.Saving? ==> |m.calls| > 0 && m.calls[|m.calls| - 1] == SaveSettingsCall(m.busy.submitted))
    && LoadCalls(m.calls) == 1
  }

  lemma MountedInv()
    ensures Inv(Mounted())
  {
    assert [GetSettingsCall][..0] == [];
  }

  /** Every enabled step keeps the invariant, sends only user-initiated requests, and never retracts one. */
  lemma StepInv(m: Screen, e: Event)
    requires Inv(m) && Enabled(m, e)
    ensures Inv(Step(m, e))
    ensures m.calls <= Step(m, e).calls
    ensures LoadCalls(Step(m, e).calls) == LoadCalls(m.calls)
    ensures UserCalls(Step(m, e).calls) + InFlight(m)
         == UserCalls(m.calls) + InFlight(Step(m, e)) + (if e.DialogSettled? || e.SaveSettled? then 1 else 0)
  {
    var r := Step(m, e);
    if r.calls != m.calls {
      assert r.calls[..|r.calls| - 1] == m.calls;
    }
  }

  /** The invariant holds after any run of enabled events. */
  lemma {:induction false} RunInv(m: Screen, events: seq<Event>)
    requires Inv(m) && ValidRun(m, events)
    ensures Inv(Run(m, events))
    decreases |events|
  {
    if events != [] {
      StepInv(m, events[0]);
      RunInv(Step(m, events[0]), events[1..]);
    }
  }

  /**
   * Single flight, counted over any run: the user-initiated requests sent
   * equal the replies received plus the change in the number in flight,
   * which is at most one. So between two dialog or save requests there is
   * always a reply, and a second save can never be sent while one is
   * awaited.
   */
  lemma {:induction false} SingleFlight(m: Screen, events: seq<Event>)
    requires Inv(m) && ValidRun(m, events)
    ensures m.calls <= Run(m, events).calls
    ensures UserCalls(Run(m, events).calls) + InFlight(m)
         == UserCalls(m.calls) + Settlements(events) + InFlight(Run(m, events))
    ensures UserCalls(Run(m, events).calls) <= UserCalls(m.calls) + Settlements(events) + 1
    decreases |events|
  {
    if events != [] {
      StepInv(m, events[0]);
      SingleFlight(Step(m, events[0]), events[1..]);
    }
  }

  /** Pressing save twice in a row sends one request: the second press cannot happen before the reply. */
  lemma NoDoubleSave(m: Screen)
    requires Inv(m) && Enabled(m, SaveClicked) && m.settings.folderPath != ""
    ensures !Enabled(Step(m, SaveClicked), SaveClicked)
    ensures !Enabled(Step(m, SaveClicked), BrowseClicked)
  {
  }

  /**
   * The initial load does not set `isLoading`: browse and save are enabled
   * while it is awaited, and a late reply replaces whatever was edited or
   * picked in the meantime.
   */
  lemma LoadIsNotGated(m: Screen, s: AppSettings, path: string)
    requires m == Mounted()
    ensures Enabled(m, BrowseClicked) && Enabled(m, SaveClicked) && Enabled(m, PathTyped(path))
    ensures var edited := Step(m, PathTyped(path));
      Enabled(edited, LoadSettled(Resolved(s))) && Step(edited, LoadSettled(Resolved(s))).settings == s
  {
  }

  // ---------------------------------------------------------------------
  // Date preview
  // ---------------------------------------------------------------------

  /**
   * `getCurrentDatePreview`: the two-digit month and day, preceded by the
   * year as JavaScript prints it unless the format is "MMDD".
   */
  function DatePreview(format: string, now: CalendarDate): string {
    var month := Pad2(now.month);
    var day := Pad2(now.day);
    if format == "MMDD" then month + day else IntText(now.year) + (month + day)
  }

  /** The "MMDD" preview is the two-digit month followed by the two-digit day. */
  lemma MmddPreviewPieces(now: CalendarDate)
    ensures DatePreview("MMDD", now) == Pad2(now.month) + Pad2(now.day)
  {
  }

  /** Any other preview is the year's text followed by the two-digit month and day. */
  lemma YearPreviewPieces(format: string, now: CalendarDate)
    requires format != "MMDD"
    ensures DatePreview(format, now) == IntText(now.year) + (Pad2(now.month) + Pad2(now.day))
  {
  }

  /** The "MMDD" preview is four digits, month then day: exactly the backend's `MMDD` folder name. */
  lemma MmddPreviewShape(now: CalendarDate)
    ensures var p := DatePreview("MMDD", now);
      && |p| == 4 && AllDigits(p)
      && AllDigits(p[..2]) && DecimalValue(p[..2]) == now.month
      && AllDigits(p[2..]) && DecimalValue(p[2..]) == now.day
      && p == FormatDate(MMDD, now)
  {
    MmddPreviewPieces(now);
    assert FormatDate(MMDD, now) == Pad2(now.month) + Pad2(now.day);
    MmddNameShape(now);
  }

  /** Any other format puts the year as JavaScript prints it before the four digits of the "MMDD" preview. */
  lemma YearPreviewShape(format: string, now: CalendarDate)
    requires format != "MMDD"
    ensures var p, y := DatePreview(format, now), IntText(now.year);
      && |p| == |y| + 4
      && p[..|y|] == y
      && p[|y|..] == DatePreview("MMDD", now)
  {
    var y, md := IntText(now.year), Pad2(now.month) + Pad2(now.day);
    YearPreviewPieces(format, now);
    MmddPreviewPieces(now);
    assert |md| == 4 by {
      AtMostTwoDigits(now.month);
      AtMostTwoDigits(now.day);
    }
    SplitAfter(y, md);
  }

  lemma SplitAfter(a: string, b: string)
    ensures |a + b| == |a| + |b| && (a + b)[..|a|] == a && (a + b)[|a|..] == b
  {
  }

  lemma DropDashes(y: string, m: string, d: string)
    requires |y| == 4 && |m| == 2 && |d| == 2
    requires AllDigits(y) && AllDigits(m) && AllDigits(d)
    ensures var p, n := y + (m + d), y + "-" + m + "-" + d;
      && |p| == 8 && AllDigits(p)
      && p == n[..4] + n[5..7] + n[8..]
      && p != n
  {
    var n := y + "-" + m + "-" + d;
    assert n[..4] == y && n[5..7] == m && n[8..] == d;
    DigitsConcat(m, d);
    DigitsConcat(y, m + d);
  }

  /**
   * For a four-digit year the "YYYYMMDD" preview is eight digits, and it is
   * not the folder the backend creates: the backend's name has dashes at
   * indices 4 and 7, which the preview leaves out.
   */
  lemma PreviewOmitsDashes(now: CalendarDate)
    requires 1000 <= now.year <= 9999
    ensures var p, n := DatePreview("YYYYMMDD", now), FormatDate(YYYYMMDD, now);
      && |p| == 8 && AllDigits(p)
      && p == n[..4] + n[5..7] + n[8..]
      && p != n
  {
    var y, m, d := IntText(now.year), Pad2(now.month), Pad2(now.day);
    YearPreviewPieces("YYYYMMDD", now);
    assert y == YearText(now.year) by {
      FourDigitDecimal(now.year);
    }
    PlainYearText(now.year);
    Pad2Shape(now.month);
    Pad2Shape(now.day);
    DropDashes(y, m, d);
  }

}

=== FILE: simple_settings_screen.dfy ===
/**
 * The simpler, unused variant of the settings screen
 * (src/components/SettingsSimpleCSS.tsx): the same settings record plus a
 * one-line message whose banner is styled as an error when the message
 * mentions a failure. Saving and folder selection are placeholders that
 * only set the message; nothing here talks to the host.
 */
module SimpleSettingsScreen {
  import opened Optional
  import opened DecimalText
  import opened Settings

  datatype SimpleScreen = SimpleScreen(settings: AppSettings, message: string)

  /** The settings this variant starts from and resets to; unlike the main screen, launch-at-login is off. */
  function StartingSettings(): AppSettings {
    AppSettings("", YYYYMMDD, false, true)
  }

  function Initial(): (v: SimpleScreen)
    ensures v.settings.folderPath == "" && v.settings.dateFormat == YYYYMMDD
    ensures !v.settings.autoStart && v.settings.autoCreateOnStartup
    ensures v.message == ""
  {
    SimpleScreen(StartingSettings(), "")
  }

  /** `handleReset`: all four fields back to the starting values, whatever they were, and a confirmation. */
  function OnReset(v: SimpleScreen): (r: SimpleScreen)
    ensures r.settings == Initial().settings
    ensures r.message == "设置已重置"
  {
    SimpleScreen(StartingSettings(), "设置已重置")
  }

  /** Reset forgets everything: any two screens reset to the same screen. */
  lemma ResetForgets(v: SimpleScreen, w: SimpleScreen)
    ensures OnReset(v) == OnReset(w)
    ensures ChangedFields(OnReset(v).settings, Initial().settings) == {}
  {
  }

  /** `handleFormatChange`. */
  function OnFormatChange(v: SimpleScreen, format: DateFormat): (r: SimpleScreen)
    ensures r.settings.dateFormat == format
    ensures ChangedFields(v.settings, r.settings) <= {DateFormatField}
    ensures r.message == v.message
  {
    v.(settings := v.settings.(dateFormat := format))
  }

  /** `handlePathChange`. */
  function OnPathChange(v: SimpleScreen, value: string): (r: SimpleScreen)
    ensures r.settings.folderPath == value
    ensures ChangedFields(v.settings, r.settings) <= {FolderPathField}
    ensures r.message == v.message
  {
    v.(settings := v.settings.(folderPath := value))
  }

  /** `handleAutoStartChange`: the checkbox's new state. */
  function OnAutoStartChange(v: SimpleScreen, checked: bool): (r: SimpleScreen)
    ensures r.settings.autoStart == checked
    ensures ChangedFields(v.settings, r.settings) <= {AutoStartField}
    ensures r.message == v.message
  {
    v.(settings := v.settings.(autoStart := checked))
  }

  /** `handleAutoCreateChange`: the checkbox's new state. */
  function OnAutoCreateChange(v: SimpleScreen, checked: bool): (r: SimpleScreen)
    ensures r.settings.autoCreateOnStartup == checked
    ensures ChangedFields(v.settings, r.settings) <= {AutoCreateField}
    ensures r.message == v.message
  {
    v.(settings := v.settings.(autoCreateOnStartup := checked))
  }

  /** The two actions this variant only announces: `handleSave` and `handleSelectFolder`. */
  datatype Placeholder = SaveAction | SelectFolderAction

  /** What each placeholder announces: that the feature arrives in a later version. */
  function Announcement(action: Placeholder): (m: string)
    ensures m != [] && '失' !in m
    ensures action == SaveAction ==> m == "设置保存功能将在后续版本完善"
    ensures action == SelectFolderAction ==> m == "文件夹选择功能将在后续版本完善"
  {
    match action
    case SaveAction => SaveStubIsPlain(); "设置保存功能将在后续版本完善"
    case SelectFolderAction => SelectStubIsPlain(); "文件夹选择功能将在后续版本完善"
  }

  /** `handleSave` and `handleSelectFolder`: announce, and change no setting. */
  function OnPlaceholder(v: SimpleScreen, action: Placeholder): (r: SimpleScreen)
    ensures r.settings == v.settings
    ensures r.message == Announcement(action)
  {
    v.(message := Announcement(action))
  }

  /**
   * The messages the two placeholders' `catch` branches would set. Their
   * `try` blocks only set a message and cannot throw, so these are never
   * shown; they are kept to check the banner's classification against them.
   */
  function SaveFailureMessage(detail: string): string {
    "保存设置失败: " + detail
  }

  function SelectFailureMessage(detail: string): string {
    "选择文件夹失败: " + detail
  }

  datatype BannerStyle = ErrorBanner | SuccessBanner

  /** The message banner: absent for an empty message, error-styled when the message contains "失败". */
  function Banner(message: string): (b: Option<BannerStyle>)
    ensures b.None? <==> message == ""
    ensures b == Some(ErrorBanner) <==> exists i: nat :: OccursAt(message, "失败", i)
  {
    ContainsIffOccurs(message, "失败");
    if message == "" then None
    else if Contains(message, "失败") then Some(ErrorBanner)
    else Some(SuccessBanner)
  }

  /** A non-empty message without the character "失" is shown as a success. */
  lemma PlainMessageBanner(m: string)
    requires m != [] && '失' !in m
    ensures Banner(m) == Some(SuccessBanner)
  {
    LacksFirstChar(m, "失败");
  }

  /** A message with "失败" anywhere in it is shown as an error. */
  lemma FailureMessageBanner(pre: string, post: string)
    ensures Banner(pre + "失败" + post) == Some(ErrorBanner)
  {
    ContainsInside(pre, "失败", post);
  }

  /** The messages the screen actually sets are shown as successes. */
  lemma ShownMessagesAreSuccesses(v: SimpleScreen, action: Placeholder)
    ensures Banner(OnPlaceholder(v, action).message) == Some(SuccessBanner)
    ensures Banner(OnReset(v).message) == Some(SuccessBanner)
  {
    ResetMessageIsPlain();
    PlainMessageBanner(OnPlaceholder(v, action).message);
    PlainMessageBanner(OnReset(v).message);
  }

  lemma SaveStubIsPlain()
    ensures '失' !in "设置保存功能将在后续版本完善"
  {
  }

  lemma SelectStubIsPlain()
    ensures '失' !in "文件夹选择功能将在后续版本完善"
  {
  }

  lemma ResetMessageIsPlain()
    ensures '失' !in "设置已重置"
  {
  }

  /** The failure messages of the two placeholders would be shown as errors. */
  lemma FailureMessagesAreErrors(detail: string)
    ensures Banner(SaveFailureMessage(detail)) == Some(ErrorBanner)
    ensures Banner(SelectFailureMessage(detail)) == Some(ErrorBanner)
  {
    FailureMessageBanner("保存设置", ": " + detail);
    assert SaveFailureMessage(detail) == "保存设置" + "失败" + (": " + detail);
    FailureMessageBanner("选择文件夹", ": " + detail);
    assert SelectFailureMessage(detail) == "选择文件夹" + "失败" + (": " + detail);
  }
}
